=== FILE: README.md ===
# VimpyType core in Dafny

VimpyType is a browser trainer for Vim motions. This project models its two
engines as pure state machines and proves properties of them.

The first engine is the modal editor simulator (`VimEditor` in
js/vim-editor.js). Its state is:

- the lines of a text;
- an integer cursor;
- a mode: NORMAL, INSERT or VISUAL;
- a pending `g` for the two-key `gg`;
- a VISUAL anchor.

It supports these operations:

- the motions `h l j k w b 0 $ gg G %`, each followed by a column clamp;
- bracket matching by depth counting across lines;
- character insert, backspace with line join, and delete-char;
- dispatch of a key by mode.

The second engine is the key-sequence recognizer used by the three training
screens: the tutorial, practice and challenge. Each appends the pressed key, as
text, to a string buffer. It then classifies the buffer against the accepted
sequences as exact, a proper prefix, or a miss. Each screen has its own policy
on top:

- the tutorial's step list, with its space-to-advance key;
- the practice screen's +10, and its −5 with a floor of zero;
- the challenge screen's +100, and its trimming of the buffer after a miss.

Modules, in dependency order:

- `Wrappers`: `Option`.
- `JsString`: the JavaScript string operations the source relies on: `s[i]`,
  `slice` with negative indices, `indexOf` and `split`. It also defines
  `Join`, which the source never calls. `Join` is the reference inverse
  that `JoinSplit` and `SplitJoin` pair with `Split`, and it describes the
  screens' texts as lines. The source's `startsWith` is the sequence
  prefix `<=` (a proper prefix `<` when the two differ).
- `CursorModel`: positions, buffers and the predicates over them.
- `Brackets`: `findMatchingBracket`, both as the source walks it and as a
  declarative "first stop" over the scan order.
- `Motions`: `moveCursor`.
- `Mutations`: `insertChar`, `backspace` and `deleteChar`.
- `VimEditor`: `setCode`, the per-mode dispatch, the `gg` prefix and its
  1000 ms expiry, and the well-formedness invariant.
- `Recognizer`: the shared buffer classification.
- `Tutorial`, `Practice` and `Challenge`: the three screens.
- `Modes`: the key sets of js/mode.js, as data. The app passes a mode's id to
  the tutorial and its key set to practice. `Tutorial.ModeIdSelectsSameSteps`
  and `Practice.StartWithModeKeys` state what those hand-offs guarantee.

Timers, randomness and the DOM are not modelled as such:

- Every `setTimeout` is an explicit event the caller may deliver. This covers
  the 800 ms buffer clear, the 200 ms and 1000 ms advances, and the 1000 ms
  expiry of a pending `g`. Each screen's `Event` type carries that expiry
  (`Expire`) and hands it to its editor. Delivering a timer that was never
  armed changes nothing.
- A timer that `stop` does not cancel is counted, not dropped. Several
  advance timers can therefore be pending at once.
- The random draw of the practice screen is a parameter: an index into the
  key set.
- Rendering is not modelled.

Behaviours of the code worth knowing, all modelled as written:

- A wrong practice key costs 5 points, floored at 0 (js/practice.js:120).
- The column really can become −1: `j` or `k` onto an empty line sets it
  with `Math.min(col, -1)`, and the clamp skips empty lines. A later `x` on a
  non-empty line then reads that −1 the way `slice` does, and duplicates the
  line's head instead of deleting (`VimEditor.DeleteAfterEmptyLineExample`).
- INSERT has no line split: `Enter` has length 5 and is ignored.
- VISUAL `x`/`d` deletes one character and returns to NORMAL with the
  anchor still set.
- The tutorial's `start` and `showStep` do not cancel a pending 800 ms
  clear, so it survives into the next step. It can only fire on the empty
  buffer `showStep` leaves, because every key that could grow the buffer
  cancels it first. It therefore has no visible effect
  (`Tutorial.StaleClearIsHarmless`).
- The tutorial's finish screen installs a click handler on the next button
  that no later `start` removes. In every run after the first finished one,
  an enabled click runs `nextStep` and then that handler's `stop`, while a
  space runs only `nextStep` (`Tutorial.SpaceVersusClick`).
- Challenge sequences spelled with angle brackets, such as `/total<Enter>`,
  are compared as text. They can only be met by typing the brackets
  (`Challenge.EnterKeyIsNotBracketSpelling`).

## Model

| member | source | states |
|---|---|---|
| JsString.SliceIndex | js/vim-editor.js:219 | a `slice` bound, after JavaScript's reading of negative and oversize values, always lies in `[0, len]` |
| JsString.SliceHead | js/vim-editor.js:219 | `slice(0, i)` is the prefix up to the normalised index |
| JsString.SliceTail | js/vim-editor.js:219 | `slice(i)` is the suffix from the normalised index |
| JsString.IndexOf | js/vim-editor.js:88 | `indexOf(c, from)` is −1 exactly when no `c` occurs at or after `max(0, from)`; otherwise it is the first such index |
| JsString.Split | js/vim-editor.js:44 | `split` yields at least one piece, and no piece contains the separator |
| JsString.JoinSplit | js/vim-editor.js:44 | joining the pieces of a split gives back the original text |
| JsString.SplitJoin | js/vim-editor.js:44 | splitting a join of separator-free pieces gives back the pieces |
| Brackets.ScanForward | js/vim-editor.js:268-297 | the forward scan, with wrapping to the next line, terminates; a hit holds the target bracket and is not before the start |
| Brackets.ScanBackward | js/vim-editor.js:268-297 | the backward scan, with wrapping to the previous line's end, terminates; a hit holds the target bracket and is not after the start |
| Brackets.MatchBracket | js/vim-editor.js:256-298 | off a bracket the cursor stays; when it moves, it lands on the partner bracket, later for `( { [` and earlier for `) } ]` |
| Brackets.CellsForward | js/vim-editor.js:268-280 | the forward scan order lists exactly the existing cells not before the start, each once, in reading order |
| Brackets.CellsBackward | js/vim-editor.js:268-280 | the backward scan order lists exactly the existing cells not after the start, each once, in reverse reading order |
| Brackets.ScanForwardIsFirstStop | js/vim-editor.js:268-297 | the forward scan returns exactly the first cell of its order that holds the target with every nested pair closed, and nothing when there is none |
| Brackets.ScanBackwardIsFirstStop | js/vim-editor.js:268-297 | the same for the backward scan |
| Brackets.MatchOpening | js/vim-editor.js:256-298 | from `( { [`, `%` lands on the first balanced partner after the cursor, or stays when there is none |
| Brackets.MatchClosing | js/vim-editor.js:256-298 | from `) } ]`, `%` lands on the nearest balanced partner before the cursor, or stays when there is none |
| Brackets.ForwardThenBack | js/vim-editor.js:268-297 | a forward scan that stops at `q`, replayed backwards from just before `q` with the brackets' roles swapped, continues exactly as a backward scan from just before the forward scan's start |
| Brackets.BackThenForward | js/vim-editor.js:268-297 | the mirror image for a backward scan replayed forwards |
| Brackets.MatchBracketReturns | js/vim-editor.js:256-298 | whenever `%` moves, `%` from where it landed returns to the bracket it started on |
| Motions.SkipSpacesBack | js/vim-editor.js:99-101 | the first loop of `b` stops on column 0 or a non-space, and everything it passed is a space |
| Motions.SkipWordBack | js/vim-editor.js:105-107 | the second loop of `b` stops on column 0 or after a space, and everything it passed is a non-space |
| Motions.Motion | js/vim-editor.js:62-130 | each motion keeps the cursor on an existing line; an unknown name does nothing; `h l w b $ 0` keep the line, `j`/`k` move it by at most one, and `%` either stays or lands on the partner of the bracket under the cursor |
| Motions.MoveCursor | js/vim-editor.js:62-140 | the cursor stays on an existing line; on a non-empty line the column is at most `len-1`; only `j k gg G %` change the line; `-1 <= col <= max(0, len-1)` is kept |
| Motions.MotionLeft | js/vim-editor.js:66-68 | `h` keeps the line, steps one column left from a positive column, and never takes a column at or above 0 below 0 |
| Motions.MotionRight | js/vim-editor.js:69-71 | `l` keeps the line and steps right only before the last character |
| Motions.MotionDown | js/vim-editor.js:72-77 | `j` moves down exactly one line with the column `min(col, len-1)`, or does nothing on the last line |
| Motions.MotionUp | js/vim-editor.js:78-83 | `k` moves up exactly one line with the same column rule, or does nothing on the first line |
| Motions.DownThenUp | js/vim-editor.js:72-83 | `j` then `k` returns to the start when both lines hold the column |
| Motions.MotionWordForward | js/vim-editor.js:84-93 | `w` lands one past the first space after the cursor (clamped to the last character), or on `len-1` when no space follows; at or past the last character it does nothing |
| Motions.MotionWordBack | js/vim-editor.js:94-112 | `b` from `col > 0` lands in `[0, col)` on column 0 or on a word start after a space, and from there to the cursor the line is one word then spaces |
| Motions.MotionLineEnd | js/vim-editor.js:113-115 | `$` lands on `max(0, len-1)` of the same line |
| Motions.MotionLineStart | js/vim-editor.js:116-118 | `0` lands on column 0 of the same line |
| Motions.MotionTopBottom | js/vim-editor.js:119-126 | `gg` lands on (0, 0) and `G` on (last line, 0) |
| Motions.MotionPercent | js/vim-editor.js:127-129 | `%` off a bracket is a no-op; when it moves, the new cell holds the partner bracket, later for openers and earlier for closers |
| Mutations.InsertChar | js/vim-editor.js:217-221 | the character is spliced in at the column as `slice` reads it, the column steps right, and a column within `[-1, len]` ends within `[0, len+1]` |
| Mutations.Backspace | js/vim-editor.js:223-237 | inside a line it removes the character left of the cursor; at column ≤ 0 below the first line it joins the line onto the previous one, drops one line and puts the cursor at the old previous length; on the first line's start it does nothing |
| Mutations.DeleteChar | js/vim-editor.js:239-248 | an empty line is left alone; at a column on the line the character there is removed, and the cursor steps back only from the last column > 0; the line count never changes |
| Mutations.BackspaceUndoesInsert | js/vim-editor.js:217-237 | backspace right after an insert, at a column on the line, restores the buffer and the cursor |
| Mutations.DeleteAtMinusOneDuplicates | js/vim-editor.js:239-248 | at column −1 on a non-empty line, `deleteChar` turns the line into its head followed by the whole line |
| VimEditor.New | js/vim-editor.js:2-11 | a new editor has no lines, the cursor at (0, 0), NORMAL mode, no pending `g` and no anchor, so its cursor is on no line until `setCode` |
| VimEditor.SetCode | js/vim-editor.js:43-50 | at least one line; the lines joined by newlines are the code; none contains a newline; the cursor is the one given; the mode is NORMAL |
| VimEditor.HandleKey | js/vim-editor.js:142-152 | any key keeps the cursor on an existing line and removes at most one line |
| VimEditor.NormalKey | js/vim-editor.js:154-191 | NORMAL keeps the line count and changes the text only on `x`; afterwards a `g` is pending if and only if the key was `g` and none was pending; `i`/`a` enter INSERT, `v` enters VISUAL anchored at the cursor |
| VimEditor.InsertKey | js/vim-editor.js:193-203 | INSERT removes at most one line (by `Backspace`); only `Backspace` and one-character keys change the text; `Escape` returns to NORMAL; any other key changes nothing |
| VimEditor.VisualKey | js/vim-editor.js:205-215 | VISUAL keeps the line count and changes the text only on `x`/`d`; `Escape`, `x` and `d` return to NORMAL; only `Escape` drops the anchor |
| VimEditor.GTimeout | js/vim-editor.js:179-181 | the expiry drops any pending `g` and changes nothing else |
| VimEditor.SetCodeWellFormed | js/vim-editor.js:43-50 | loading code with a cursor on its text yields a well-formed editor |
| VimEditor.StepKeepsWellFormed | js/vim-editor.js:142-215 | every key and every `g` expiry keeps the line in range, the column within `[-1, limit]` (limit `max(0, len-1)`, or `len` in INSERT), and a pending `g` only in NORMAL mode |
| VimEditor.NormalTransitions | js/vim-editor.js:154-191 | NORMAL: `i`, `a`, `v`, `x` and the motions do what the dispatch says, and every key but `g` clears the pending `g`; any other key only clears it |
| VimEditor.SecondGJumpsToTop | js/vim-editor.js:171-183 | a `g` with a `g` pending jumps to (0, 0) and clears it; a `g` without one only arms it |
| VimEditor.PendingOnlyAfterLoneG | js/vim-editor.js:171-189 | a `g` is pending after an event if and only if that event was a `g` in NORMAL mode that found none pending |
| VimEditor.GgNeedsAdjacentGs | js/vim-editor.js:171-189 | `gg` fires on an event if and only if it and the event before it are both `g` in NORMAL mode, the first finding none pending; it then lands on (0, 0) |
| VimEditor.InsertTransitions | js/vim-editor.js:193-203 | INSERT: `Escape` returns to NORMAL one column left (not below 0); `Backspace` deletes backwards; a one-character key is inserted; any other key leaves the state unchanged |
| VimEditor.VisualTransitions | js/vim-editor.js:205-215 | VISUAL: `Escape` returns to NORMAL and drops the anchor; the motions move; `x`/`d` delete one character and return to NORMAL with the anchor kept; other keys change nothing |
| VimEditor.DownOntoEmptyLine | js/vim-editor.js:72-77 | `j` onto an empty line leaves the column at −1 |
| VimEditor.DeleteAfterEmptyLineExample | js/vim-editor.js:72-248 | from `["abc", "", "def"]`, `j j x` reaches column −1 and turns `def` into `dedef` (the `j` motion at lines 72-77, `x` at 184-185 and `deleteChar` at 239-248) |
| Recognizer.Scan | js/challenge.js:132-143 | the loop over the accepted sequences reports a match if and only if the buffer is one of them, and a partial match if and only if it is none of them but a prefix of one |
| Recognizer.Classify | js/challenge.js:132-147 | exact if and only if the buffer is accepted; partial if and only if it is not, but is a proper prefix of an accepted sequence; a miss if and only if it is a prefix of none |
| Recognizer.ClassifySingle | js/tutorial.js:132-145 | the one-target test (equality, then `startsWith`, else a miss) is the general classification with one accepted sequence |
| Recognizer.PrefixesNeverMiss | js/challenge.js:135-143 | every prefix of an accepted sequence is at least partial, and the whole sequence is exact |
| Recognizer.MissStaysMissed | js/challenge.js:135-147 | once the buffer misses every accepted sequence, appending more keys never brings a match or a partial match back |
| Tutorial.Level | js/tutorial.js:59-64 | the level lies in 1..4, and any name other than `medium`, `hard` or `meister` is level 1 |
| Tutorial.Select | js/tutorial.js:63-66 | the filter keeps exactly the steps of the given level |
| Tutorial.SelectAppend | js/tutorial.js:63-66 | filtering a concatenation is the concatenation of the filters, so table order is kept |
| Tutorial.ActiveSteps | js/tutorial.js:58-71 | the played steps are never empty and all come from the table |
| Tutorial.EasySteps | js/tutorial.js:10-71 | `easy` plays the four basic steps, in table order |
| Tutorial.MediumSteps | js/tutorial.js:10-71 | `medium` plays the six word, line and document steps, in table order |
| Tutorial.HardSteps | js/tutorial.js:10-71 | `hard` plays the last three steps, in table order |
| Tutorial.MeisterSteps | js/tutorial.js:10-71 | `meister` has no steps of its own and falls back to the whole table |
| Tutorial.UnknownModeIsEasy | js/tutorial.js:58-71 | a mode the level table does not list plays the `easy` steps |
| Tutorial.New | js/tutorial.js:1-49 | index 0, empty buffer, no clear pending; the editor holds the tutorial text with the cursor at (1, 10) and is well-formed |
| Tutorial.ShowStep | js/tutorial.js:92-109 | on a current step the buffer is emptied, so it is on track, and the button disabled; past the last step the button is enabled, the finish handler installed, and the buffer kept; the steps, index, pending clear and editor are unchanged |
| Tutorial.Start | js/tutorial.js:55-78 | the mode's steps from index 0, with an empty buffer and the button disabled; a pending clear survives |
| Tutorial.NextStep | js/tutorial.js:153-156 | the index grows by exactly one; a new step starts with an empty buffer and a disabled button, and past the end the button is enabled |
| Tutorial.Stop | js/tutorial.js:80-85 | the buffer is emptied and the pending clear cancelled; the steps, index, button, finish handler and editor are kept |
| Tutorial.ClearFired | js/tutorial.js:138-141 | the clear empties the buffer only when it is pending, leaves no clear armed, and keeps the step, the button and the editor |
| Tutorial.Click | js/tutorial.js:51-170 | a disabled button does nothing; an enabled one moves on one step, after which the button is enabled exactly when the steps are exhausted and the buffer is on track; once a finish handler is installed the click also empties the buffer and cancels the clear, and a click that reaches the end installs the handler (the constructor's listener at line 51, the finish handler at 164-170) |
| Tutorial.Key | js/tutorial.js:111-151 | a space does nothing while the button is disabled and otherwise moves on one step, keeping the editor and the pending clear; any other key leaves the step alone, reaches the editor, and leaves a buffer that is empty or grown by the key and always a prefix of the step's key; a pending clear means a proper prefix, and a newly enabled button means the whole key |
| Tutorial.GExpired | js/vim-editor.js:179-181 | the editor's `g` expiry drops the pending `g` and changes nothing else on the tutorial |
| Tutorial.ApplyKeepsValid | js/tutorial.js:55-156 | every event, the `g` expiry included, keeps the buffer a prefix of the current step's key and the editor well-formed |
| Tutorial.ExpiredGDoesNotJump | js/vim-editor.js:171-183 | on the `gg` step, `g`, the 800 ms clear, the `g` expiry and `g` leave one `g` in the buffer and a fresh `g` pending, with the cursor unmoved |
| Tutorial.SpaceVersusClick | js/tutorial.js:158-170 | space and a click on the next button agree until a finish screen has installed its handler; after that a click is the space followed by `stop` |
| Tutorial.StaleClearIsHarmless | js/tutorial.js:92-109 | a clear armed before `showStep` survives it, but firing it on the new step changes nothing but the armed flag |
| Tutorial.SpaceOnlyAdvances | js/tutorial.js:115-120 | a space never reaches the buffer or the editor, and moves to the next step exactly when the button is enabled |
| Tutorial.KeyOutcomes | js/tutorial.js:122-150 | the full step key enables the button; a proper prefix is kept and arms the clear; anything else empties the buffer; the editor receives the key |
| Tutorial.KeyKeepsBufferOnTrack | js/tutorial.js:111-151 | the buffer always holds a prefix of the current step's key |
| Tutorial.TypingGg | js/tutorial.js:111-151 | on the `gg` step, `g` is partial and arms the clear; a second `g` completes the step and the editor jumps to (0, 0) |
| Tutorial.ModeIdSelectsSameSteps | js/tutorial.js:55-71 | starting with the id `getMode` returns plays the same steps as starting with the name that was asked for, since both fall back to `easy` |
| Practice.New | js/practice.js:1-25 | inactive, score 0, no target; the editor holds the practice text with the cursor at (2, 4) and is well-formed |
| Practice.Penalize | js/practice.js:120 | `max(0, score-5)`: five less when that stays non-negative, else 0 |
| Practice.NextKey | js/practice.js:57-70 | while active the target becomes a key of the mode's set and the buffer is emptied, with score, timers and editor kept; while inactive nothing happens |
| Practice.Start | js/practice.js:33-42 | active, score 0, empty buffer, and a target from the given key set |
| Practice.Stop | js/practice.js:44-55 | inactive, empty buffer, the pending clear cancelled; the score, key set, target, pending advance timers and editor are kept |
| Practice.WrongKey | js/practice.js:118-128 | the buffer is emptied and the score becomes `max(0, score-5)`; activity, key set, target, timers and editor are kept |
| Practice.ClearFired | js/practice.js:103-106 | the clear empties the buffer only when it is pending, leaves no clear armed, and keeps the target, score, next-target timers and editor |
| Practice.Key | js/practice.js:72-116 | inactive, nothing changes; active, the target stays, the key reaches the editor, the buffer is a prefix of the target, the score is kept, raised by 10 or penalized, and a next-target timer is scheduled only by a +10 that leaves the target in the buffer |
| Practice.AdvanceFired | js/practice.js:94-97 | a pending 200 ms timer is used up and, on an active screen, leaves a target from the key set and an empty buffer; score, activity and editor are kept, and an inactive screen keeps its target and buffer |
| Practice.ApplyKeepsValid | js/practice.js:33-128 | every event, the editor's `g` expiry included, keeps the score non-negative, an active screen's target in its key set, and the editor well-formed |
| Practice.InactiveIgnoresKeys | js/practice.js:73 | a key on an inactive screen changes nothing |
| Practice.KeyOutcomes | js/practice.js:72-116 | a hit adds exactly 10 and schedules one next target; a proper prefix keeps the score and arms the clear; anything else empties the buffer and applies the floored −5 |
| Practice.KeyAfterHitIsWrong | js/practice.js:85-110 | a key pressed after a hit and before the next target is drawn is penalized |
| Practice.TypingGgScoresOnce | js/practice.js:81-110 | typing `gg` one `g` at a time scores exactly once |
| Practice.StartWithModeKeys | js/practice.js:33-42 | starting with a mode's key set allows exactly the draws within the set, always the first four, and the target is one of the mode's keys |
| Challenge.Accepted | js/challenge.js:130 | the accepted sequences are the target followed by the alternatives |
| Challenge.MaxLen | js/challenge.js:152 | the length of the longest sequence: no sequence is longer, and one has that length |
| Challenge.New | js/challenge.js:1-72 | inactive, score 0, index 0, with the challenge table |
| Challenge.LoadChallenge | js/challenge.js:98-112 | the current challenge's code with the cursor at (0, 0) and an empty buffer; past the last, the closing text with the buffer kept; nothing else changes |
| Challenge.Start | js/challenge.js:74-83 | active, score 0, index 0, empty buffer, well-formed editor |
| Challenge.Stop | js/challenge.js:85-96 | inactive with an empty buffer; challenge table, score, index, pending timers and editor are kept |
| Challenge.Trim | js/challenge.js:152-155 | a buffer within the limit is kept; a longer one becomes its last character |
| Challenge.AdvanceFired | js/challenge.js:169-172 | a pending 1000 ms timer moves the index on by one, keeps score and activity, reloads a well-formed editor at the top, and empties the buffer unless the list is exhausted; with no timer pending nothing changes |
| Challenge.Key | js/challenge.js:114-162 | inactive, nothing changes; active, the challenge stays, the key reaches the editor, the buffer grows by the key or is cut to at most one character, and the score and timers either stay or grow by 100 and one together with an accepted sequence in the buffer |
| Challenge.KeyBoundsBuffer | js/challenge.js:135-156 | after any key the buffer is at most the longest accepted length plus 2, whatever it was before |
| Challenge.KeyKeepsValid | js/challenge.js:135-156 | a key on an active screen with a challenge current keeps the editor well-formed and the buffer within the limit |
| Challenge.ApplyKeepsValid | js/challenge.js:74-172 | every event, the editor's `g` expiry included, keeps an active screen's editor well-formed and its buffer within the current limit |
| Challenge.ScoreNeverDrops | js/challenge.js:114-173 | no event but `start` lowers the score; it rises, by exactly 100, if and only if a key completes an accepted sequence |
| Challenge.KeyOutcomes | js/challenge.js:114-162 | a match adds 100 and schedules one move without moving; a proper prefix keeps the buffer and schedules nothing; a miss keeps the buffer up to the limit and cuts it to its last character beyond |
| Challenge.AdvanceMovesByOne | js/challenge.js:164-173 | a fired timer moves the index by exactly one and leaves the score alone |
| Challenge.FirstChallengeAlternative | js/challenge.js:34-35 | typing `2`, `j`, `w` solves the first challenge |
| Challenge.EnterKeyIsNotBracketSpelling | js/challenge.js:126-143 | the `Enter` key after `/total` misses, while the literal spelling `/total<Enter` is still a partial match |
| Challenge.MissRunIsCut | js/challenge.js:147-156 | on the fourth challenge (limit 4) a fifth wrong character cuts the buffer to that character |
| Modes.GetMode | js/mode.js:41-43 | a listed name gives its own mode, any other the `easy` mode; every key set starts with `h j k l` |
| Modes.KeySetsGrow | js/mode.js:2-13 | the `easy` key set is a proper prefix of `medium`'s, which is a proper prefix of `hard`'s |

## Left out

- Rendering is not modelled: `render`, `renderStatusBar`, `initDOM`, `setInstruction`, the instruction colours and the progress label. They only draw.
- js/keyboard.js (highlights) is not modelled. js/main.js (screen routing, theme, intro flag, Ctrl+ key naming) is not modelled either. Neither takes part in the state changes modelled here.
- The file name given to `setCode` is not modelled. It is shown but never read.
- Audio playback is not modelled. It has no effect on state.
- The asynchronous `import()` of the editor is not modelled. The editor is taken as already loaded in every screen, so the `if (this.editor)` fallbacks are not modelled.
- `Tutorial.Key` and `Challenge.Key`: the tutorial needs a current step for any key other than space, and an active challenge screen needs a current challenge for every key. Past the last step or challenge the source reads a property of `undefined` and throws; that throw is a precondition here.
- `Tutorial.Click`: of the finish handler (js/tutorial.js:164-170) only its `stop` is modelled. The `app.startPractice()` call that follows is a call into the app object and is not modelled, and neither is the `onComplete` callback of `stop`.
- The difficulty lookups use plain objects. Names such as `toString` would find inherited properties. Only the four listed names are modelled, and `Tutorial.Level` and `Modes.GetMode` treat every other name as unlisted.
- String lengths count UTF-16 code units in the source and characters here. The keys and texts involved are all in the Basic Multilingual Plane.
- `Motions.MotionPercent` requires the column to be within `max(0, len-1)`. That is the range `StepKeepsWellFormed` maintains outside INSERT mode.
- `Modes.GetMode` does not state that every key in a set is non-empty.
- The red flash of a wrong practice key and the instruction colour timer are not modelled. They are presentation only.

=== FILE: brackets.dfy ===
/**
 * `%`: bracket matching by depth counting across line boundaries
 * (`findMatchingBracket` in js/vim-editor.js).
 *
 * The scan is modelled twice: once as the source walks it (a cell at a time,
 * wrapping to the neighbouring line when it runs off an end), and once
 * declaratively, as the first cell of the scan order that holds the partner
 * bracket at which every bracket opened on the way has been closed again.
 * `ScanForwardIsFirstStop` and `ScanBackwardIsFirstStop` say the two agree.
 */
module Brackets {
  import opened Wrappers
  import opened CursorModel
  import JsString

  /** The `pairs` table: each bracket and its partner. */
  function Partner(ch: char): Option<char>
  {
    match ch
    case '(' => Some(')')
    case ')' => Some('(')
    case '{' => Some('}')
    case '}' => Some('{')
    case '[' => Some(']')
    case ']' => Some('[')
    case _ => None
  }

  /** The brackets whose partner is searched for forwards. */
  predicate Opens(ch: char)
  {
    ch == '(' || ch == '{' || ch == '['
  }

  /** The cursor rests on one of the six brackets. */
  predicate OnBracket(lines: seq<string>, p: Pos)
  {
    Cell(lines, p).Some? && Partner(Cell(lines, p).value).Some?
  }

  /** The scan's forward half, started at cell (l, c) with `depth` nested
      brackets open. Running off the end of a line continues at column 0 of
      the next one; running off the last line ends the scan with nothing. */
  function ScanForward(lines: seq<string>, l: nat, c: nat, ch: char, target: char, depth: nat): (r: Option<Pos>)
    ensures r.Some? ==> OnChar(lines, r.value) && Cell(lines, r.value) == Some(target)
    ensures r.Some? ==> !Before(r.value, Pos(l, c))
    decreases |lines| - l, if l < |lines| then |lines[l]| - c else 0
  {
    if l >= |lines| then None
    else if c >= |lines[l]| then ScanForward(lines, l + 1, 0, ch, target, depth)
    else if lines[l][c] == ch then ScanForward(lines, l, c + 1, ch, target, depth + 1)
    else if lines[l][c] == target then
      if depth == 0 then Some(Pos(l, c))
      else ScanForward(lines, l, c + 1, ch, target, depth - 1)
    else ScanForward(lines, l, c + 1, ch, target, depth)
  }

  /** The scan's backward half, started at cell (l, c). Running off the start
      of a line continues at the last column of the previous one (column -1
      of an empty line runs straight off again); running off the first line
      ends the scan with nothing. */
  function ScanBackward(lines: seq<string>, l: int, c: int, ch: char, target: char, depth: nat): (r: Option<Pos>)
    requires l < |lines|
    requires 0 <= l ==> c < |lines[l]|
    ensures r.Some? ==> OnChar(lines, r.value) && Cell(lines, r.value) == Some(target)
    ensures r.Some? ==> !Before(Pos(l, c), r.value)
    decreases l + 1, c + 1
  {
    if l < 0 then None
    else if c < 0 then
      if l - 1 >= 0 then ScanBackward(lines, l - 1, |lines[l - 1]| - 1, ch, target, depth)
      else None
    else if lines[l][c] == ch then ScanBackward(lines, l, c - 1, ch, target, depth + 1)
    else if lines[l][c] == target then
      if depth == 0 then Some(Pos(l, c))
      else ScanBackward(lines, l, c - 1, ch, target, depth - 1)
    else ScanBackward(lines, l, c - 1, ch, target, depth)
  }

  /** `findMatchingBracket`: on a bracket, the cell of its partner if the scan
      finds one; otherwise the cursor stays where it is. */
  function MatchBracket(lines: seq<string>, cur: Pos): (r: Pos)
    requires OnLine(lines, cur)
    ensures !OnBracket(lines, cur) ==> r == cur
    ensures r != cur ==>
              && OnBracket(lines, cur)
              && OnChar(lines, r)
              && Cell(lines, r) == Partner(Cell(lines, cur).value)
              && (Opens(Cell(lines, cur).value) ==> Before(cur, r))
              && (!Opens(Cell(lines, cur).value) ==> Before(r, cur))
  {
    match JsString.At(lines[cur.line], cur.col)
    case None => cur
    case Some(ch) =>
      match Partner(ch)
      case None => cur
      case Some(target) =>
        var found :=
          if Opens(ch) then ScanForward(lines, cur.line, cur.col + 1, ch, target, 0)
          else ScanBackward(lines, cur.line, cur.col - 1, ch, target, 0);
        if found.Some? then found.value else cur
  }

  // ---------------------------------------------------------------------
  // The declarative reading of the scan.

  /** The cells a forward scan from (l, c) visits, in the order it visits them. */
  function CellsForward(lines: seq<string>, l: nat, c: nat): (cs: seq<Pos>)
    ensures forall i :: 0 <= i < |cs| ==> OnChar(lines, cs[i]) && !Before(cs[i], Pos(l, c))
    ensures forall p :: OnChar(lines, p) && !Before(p, Pos(l, c)) ==> p in cs
    ensures forall i, j :: 0 <= i < j < |cs| ==> Before(cs[i], cs[j])
    decreases |lines| - l, if l < |lines| then |lines[l]| - c else 0
  {
    if l >= |lines| then []
    else if c >= |lines[l]| then CellsForward(lines, l + 1, 0)
    else [Pos(l, c)] + CellsForward(lines, l, c + 1)
  }

  /** The cells a backward scan from (l, c) visits, in the order it visits them. */
  function CellsBackward(lines: seq<string>, l: int, c: int): (cs: seq<Pos>)
    requires l < |lines|
    requires 0 <= l ==> c < |lines[l]|
    ensures forall i :: 0 <= i < |cs| ==> OnChar(lines, cs[i]) && !Before(Pos(l, c), cs[i])
    ensures forall p :: OnChar(lines, p) && !Before(Pos(l, c), p) ==> p in cs
    ensures forall i, j :: 0 <= i < j < |cs| ==> Before(cs[j], cs[i])
    decreases l + 1, c + 1
  {
    if l < 0 then []
    else if c < 0 then
      if l - 1 >= 0 then CellsBackward(lines, l - 1, |lines[l - 1]| - 1) else []
    else [Pos(l, c)] + CellsBackward(lines, l, c - 1)
  }

  /** What one cell does to the nesting depth: another `ch` opens a nested
      pair, a `target` closes one. */
  function Weight(cell: Option<char>, ch: char, target: char): int
  {
    if cell == Some(ch) then 1 else if cell == Some(target) then -1 else 0
  }

  /** Net change of the nesting depth over a run of cells. */
  function Depth(lines: seq<string>, cs: seq<Pos>, ch: char, target: char): int
  {
    if |cs| == 0 then 0
    else Weight(Cell(lines, cs[0]), ch, target) + Depth(lines, cs[1..], ch, target)
  }

  /** Cell `k` of the scan order holds `target` and, counting `depth` brackets
      already open, every bracket opened before it has been closed. */
  predicate StopsAt(lines: seq<string>, cs: seq<Pos>, k: int, ch: char, target: char, depth: int)
  {
    0 <= k < |cs| && Cell(lines, cs[k]) == Some(target) && depth + Depth(lines, cs[..k], ch, target) == 0
  }

  /** The scan never stops anywhere in `cs`. */
  predicate NoStop(lines: seq<string>, cs: seq<Pos>, ch: char, target: char, depth: int)
  {
    forall k :: 0 <= k < |cs| ==> !StopsAt(lines, cs, k, ch, target, depth)
  }

  /** Cell `k` is the first cell of `cs` at which the scan stops. */
  predicate FirstAt(lines: seq<string>, cs: seq<Pos>, k: int, ch: char, target: char, depth: int)
  {
    StopsAt(lines, cs, k, ch, target, depth) && forall j :: 0 <= j < k ==> !StopsAt(lines, cs, j, ch, target, depth)
  }

  /** `r` is the first cell of `cs` at which the scan stops, or nothing
      when there is no such cell. */
  predicate FirstStop(lines: seq<string>, cs: seq<Pos>, ch: char, target: char, depth: int, r: Option<Pos>)
  {
    && (r.None? <==> NoStop(lines, cs, ch, target, depth))
    && (r.Some? ==> exists k :: 0 <= k < |cs| && cs[k] == r.value && FirstAt(lines, cs, k, ch, target, depth))
  }

  lemma StopsAtCons(lines: seq<string>, x: Pos, cs: seq<Pos>, k: int, ch: char, target: char, depth: int)
    requires 0 <= k < |cs|
    ensures StopsAt(lines, [x] + cs, k + 1, ch, target, depth)
        <==> StopsAt(lines, cs, k, ch, target, depth + Weight(Cell(lines, x), ch, target))
  {
    var xs := [x] + cs;
    assert xs[..k + 1][1..] == cs[..k];
    assert xs[k + 1] == cs[k];
  }

  lemma NoStopCons(lines: seq<string>, x: Pos, cs: seq<Pos>, ch: char, target: char, depth: int)
    ensures NoStop(lines, [x] + cs, ch, target, depth)
        <==> !StopsAt(lines, [x] + cs, 0, ch, target, depth)
             && NoStop(lines, cs, ch, target, depth + Weight(Cell(lines, x), ch, target))
  {
    var xs := [x] + cs;
    var d' := depth + Weight(Cell(lines, x), ch, target);
    if NoStop(lines, xs, ch, target, depth) {
      forall k | 0 <= k < |cs|
        ensures !StopsAt(lines, cs, k, ch, target, d')
      {
        StopsAtCons(lines, x, cs, k, ch, target, depth);
        assert !StopsAt(lines, xs, k + 1, ch, target, depth);
      }
    }
    if !StopsAt(lines, xs, 0, ch, target, depth) && NoStop(lines, cs, ch, target, d') {
      forall k | 0 <= k < |xs|
        ensures !StopsAt(lines, xs, k, ch, target, depth)
      {
        if k > 0 {
          StopsAtCons(lines, x, cs, k - 1, ch, target, depth);
          assert !StopsAt(lines, cs, k - 1, ch, target, d');
        }
      }
    }
  }

  lemma FirstAtCons(lines: seq<string>, x: Pos, cs: seq<Pos>, k: int, ch: char, target: char, depth: int)
    requires 0 <= k < |cs|
    requires FirstAt(lines, cs, k, ch, target, depth + Weight(Cell(lines, x), ch, target))
    requires !StopsAt(lines, [x] + cs, 0, ch, target, depth)
    ensures FirstAt(lines, [x] + cs, k + 1, ch, target, depth)
  {
    var xs := [x] + cs;
    var d' := depth + Weight(Cell(lines, x), ch, target);
    StopsAtCons(lines, x, cs, k, ch, target, depth);
    forall j | 0 <= j < k + 1
      ensures !StopsAt(lines, xs, j, ch, target, depth)
    {
      if j > 0 {
        StopsAtCons(lines, x, cs, j - 1, ch, target, depth);
        assert !StopsAt(lines, cs, j - 1, ch, target, d');
      }
    }
  }

  /** A cell at which the scan does not stop shifts the first stop of the
      remaining cells by one, with the depth it leaves behind. */
  lemma FirstStopCons(lines: seq<string>, x: Pos, cs: seq<Pos>, ch: char, target: char, depth: int, r: Option<Pos>)
    requires FirstStop(lines, cs, ch, target, depth + Weight(Cell(lines, x), ch, target), r)
    requires !StopsAt(lines, [x] + cs, 0, ch, target, depth)
    ensures FirstStop(lines, [x] + cs, ch, target, depth, r)
  {
    var xs := [x] + cs;
    var d' := depth + Weight(Cell(lines, x), ch, target);
    NoStopCons(lines, x, cs, ch, target, depth);
    if r.Some? {
      var k :| 0 <= k < |cs| && cs[k] == r.value && FirstAt(lines, cs, k, ch, target, d');
      FirstAtCons(lines, x, cs, k, ch, target, depth);
      assert xs[k + 1] == r.value;
    }
  }

  /** A partner bracket at depth 0 is where the scan stops. */
  lemma FirstStopHere(lines: seq<string>, x: Pos, cs: seq<Pos>, ch: char, target: char)
    requires Cell(lines, x) == Some(target)
    ensures FirstStop(lines, [x] + cs, ch, target, 0, Some(x))
  {
    var xs := [x] + cs;
    assert xs[..0] == [];
    assert StopsAt(lines, xs, 0, ch, target, 0);
  }

  /** The forward scan stops exactly at the first stop of its scan order. */
  lemma {:induction false} ScanForwardIsFirstStop(lines: seq<string>, l: nat, c: nat, ch: char, target: char, depth: nat)
    requires ch != target
    ensures FirstStop(lines, CellsForward(lines, l, c), ch, target, depth, ScanForward(lines, l, c, ch, target, depth))
    decreases |lines| - l, if l < |lines| then |lines[l]| - c else 0
  {
    if l >= |lines| {
    } else if c >= |lines[l]| {
      ScanForwardIsFirstStop(lines, l + 1, 0, ch, target, depth);
    } else {
      var x := Pos(l, c);
      var rest := CellsForward(lines, l, c + 1);
      assert CellsForward(lines, l, c) == [x] + rest;
      assert Cell(lines, x) == Some(lines[l][c]);
      assert ([x] + rest)[..0] == [];
      if lines[l][c] == ch {
        ScanForwardIsFirstStop(lines, l, c + 1, ch, target, depth + 1);
        FirstStopCons(lines, x, rest, ch, target, depth, ScanForward(lines, l, c + 1, ch, target, depth + 1));
      } else if lines[l][c] == target {
        if depth == 0 {
          FirstStopHere(lines, x, rest, ch, target);
        } else {
          ScanForwardIsFirstStop(lines, l, c + 1, ch, target, depth - 1);
          FirstStopCons(lines, x, rest, ch, target, depth, ScanForward(lines, l, c + 1, ch, target, depth - 1));
        }
      } else {
        ScanForwardIsFirstStop(lines, l, c + 1, ch, target, depth);
        FirstStopCons(lines, x, rest, ch, target, depth, ScanForward(lines, l, c + 1, ch, target, depth));
      }
    }
  }

  /** The backward scan stops exactly at the first stop of its scan order. */
  lemma {:induction false} ScanBackwardIsFirstStop(lines: seq<string>, l: int, c: int, ch: char, target: char, depth: nat)
    requires ch != target
    requires l < |lines|
    requires 0 <= l ==> c < |lines[l]|
    ensures FirstStop(lines, CellsBackward(lines, l, c), ch, target, depth, ScanBackward(lines, l, c, ch, target, depth))
    decreases l + 1, c + 1
  {
    if l < 0 {
    } else if c < 0 {
      if l - 1 >= 0 {
        ScanBackwardIsFirstStop(lines, l - 1, |lines[l - 1]| - 1, ch, target, depth);
      }
    } else {
      var x := Pos(l, c);
      var rest := CellsBackward(lines, l, c - 1);
      assert CellsBackward(lines, l, c) == [x] + rest;
      assert Cell(lines, x) == Some(lines[l][c]);
      assert ([x] + rest)[..0] == [];
      if lines[l][c] == ch {
        ScanBackwardIsFirstStop(lines, l, c - 1, ch, target, depth + 1);
        FirstStopCons(lines, x, rest, ch, target, depth, ScanBackward(lines, l, c - 1, ch, target, depth + 1));
      } else if lines[l][c] == target {
        if depth == 0 {
          FirstStopHere(lines, x, rest, ch, target);
        } else {
          ScanBackwardIsFirstStop(lines, l, c - 1, ch, target, depth - 1);
          FirstStopCons(lines, x, rest, ch, target, depth, ScanBackward(lines, l, c - 1, ch, target, depth - 1));
        }
      } else {
        ScanBackwardIsFirstStop(lines, l, c - 1, ch, target, depth);
        FirstStopCons(lines, x, rest, ch, target, depth, ScanBackward(lines, l, c - 1, ch, target, depth));
      }
    }
  }

  /** From an opening bracket, `%` lands on the first cell after it that
      closes it, counting nested pairs; with no such cell it stays put. */
  lemma MatchOpening(lines: seq<string>, cur: Pos)
    requires OnLine(lines, cur) && OnBracket(lines, cur) && Opens(Cell(lines, cur).value)
    ensures var ch := Cell(lines, cur).value;
            var r := MatchBracket(lines, cur);
            FirstStop(lines, CellsForward(lines, cur.line, cur.col + 1), ch, Partner(ch).value, 0,
                      if r == cur then None else Some(r))
  {
    var ch := Cell(lines, cur).value;
    ScanForwardIsFirstStop(lines, cur.line, cur.col + 1, ch, Partner(ch).value, 0);
  }

  /** From a closing bracket, `%` lands on the last cell before it that
      opens it, counting nested pairs; with no such cell it stays put. */
  lemma MatchClosing(lines: seq<string>, cur: Pos)
    requires OnLine(lines, cur) && OnBracket(lines, cur) && !Opens(Cell(lines, cur).value)
    ensures var ch := Cell(lines, cur).value;
            var r := MatchBracket(lines, cur);
            FirstStop(lines, CellsBackward(lines, cur.line, cur.col - 1), ch, Partner(ch).value, 0,
                      if r == cur then None else Some(r))
  {
    var ch := Cell(lines, cur).value;
    ScanBackwardIsFirstStop(lines, cur.line, cur.col - 1, ch, Partner(ch).value, 0);
  }

  // ---------------------------------------------------------------------
  // `%` there and back.

  /** A forward scan that finds its stop at `q`, replayed backwards from
      just before `q` with the roles of the two brackets swapped, reaches
      the cell just before the forward scan's start with the same depth the
      forward scan started with. */
  lemma {:induction false} ForwardThenBack(lines: seq<string>, l: nat, c: nat, ch: char, target: char, depth: nat)
    requires ch != target
    requires l < |lines| ==> c <= |lines[l]|
    requires ScanForward(lines, l, c, ch, target, depth).Some?
    ensures l < |lines|
    ensures var q := ScanForward(lines, l, c, ch, target, depth).value;
            ScanBackward(lines, q.line, q.col - 1, target, ch, 0) == ScanBackward(lines, l, c - 1, target, ch, depth)
    decreases |lines| - l, if l < |lines| then |lines[l]| - c else 0
  {
    if c >= |lines[l]| {
      ForwardThenBack(lines, l + 1, 0, ch, target, depth);
    } else if lines[l][c] == ch {
      ForwardThenBack(lines, l, c + 1, ch, target, depth + 1);
    } else if lines[l][c] == target {
      if depth > 0 {
        ForwardThenBack(lines, l, c + 1, ch, target, depth - 1);
      }
    } else {
      ForwardThenBack(lines, l, c + 1, ch, target, depth);
    }
  }

  /** The mirror image: a backward scan replayed forwards from just after
      its stop reaches the cell just after the backward scan's start. */
  lemma {:induction false} BackThenForward(lines: seq<string>, l: int, c: int, ch: char, target: char, depth: nat)
    requires ch != target
    requires l < |lines| && -1 <= c && (0 <= l ==> c < |lines[l]|)
    requires ScanBackward(lines, l, c, ch, target, depth).Some?
    ensures 0 <= l &&
            var q := ScanBackward(lines, l, c, ch, target, depth).value;
            ScanForward(lines, q.line, q.col + 1, target, ch, 0) == ScanForward(lines, l, c + 1, target, ch, depth)
    decreases l + 1, c + 1
  {
    if c < 0 {
      BackThenForward(lines, l - 1, |lines[l - 1]| - 1, ch, target, depth);
    } else if lines[l][c] == ch {
      BackThenForward(lines, l, c - 1, ch, target, depth + 1);
    } else if lines[l][c] == target {
      if depth > 0 {
        BackThenForward(lines, l, c - 1, ch, target, depth - 1);
      }
    } else {
      BackThenForward(lines, l, c - 1, ch, target, depth);
    }
  }

  /** `%` is its own inverse wherever it moves: from the partner it found,
      `%` comes straight back to the bracket it started on. */
  lemma MatchBracketReturns(lines: seq<string>, p: Pos)
    requires OnLine(lines, p) && MatchBracket(lines, p) != p
    ensures OnLine(lines, MatchBracket(lines, p))
    ensures MatchBracket(lines, MatchBracket(lines, p)) == p
  {
    var ch := Cell(lines, p).value;
    var target := Partner(ch).value;
    assert JsString.At(lines[p.line], p.col) == Some(ch);
    if Opens(ch) {
      ForwardThenBack(lines, p.line, p.col + 1, ch, target, 0);
    } else {
      BackThenForward(lines, p.line, p.col - 1, ch, target, 0);
    }
  }
}

=== FILE: challenge.dfy ===
/**
 * The challenge screen of js/challenge.js: a fixed list of challenges, each
 * a code text and the key sequences that solve it; +100 for typing one of
 * them, then a move to the next challenge when a 1000 ms timer fires. A
 * miss is never penalized: the buffer grows until it is longer than the
 * longest accepted sequence plus two, and then keeps only its last
 * character.
 */
module Challenge {
  import opened CursorModel
  import JsString
  import VimEditor
  import Recognizer

  /** One challenge: the code it loads, the main solution and the
      alternatives. The instruction text is presentation and is not kept. */
  datatype Spec = Spec(code: string, target: string, alternatives: seq<string>)

  const Specs: seq<Spec> := [
    Spec("def calculate_sum(numbers):\n    total = 0\n    for num in numbers:\n        total += num\n    return total",
         "jjw", ["2jw", "/total<Enter>"]),
    Spec("result = calculate_sum([1, 2, 3])\nprint(f\"Sum: {result}\")\n# End of script",
         "jdd", ["Gdd", "/print<Enter>dd"]),
    Spec("    for num in numbers:\n        total += num",
         "wcwn<Esc>", ["dwian<Esc>"]),
    Spec("import os\n\ndef main():\n    print(\"Hello\")\n\nif __name__ == \"__main__\":\n    main()",
         "G", [":$"]),
    Spec("def copy_me():\n    pass",
         "yy", ["Y"])]

  /** The text the editor shows once every challenge is done. */
  const Done: string := "Great job!"

  const Reward := 100

  /** The sequences a challenge accepts: its target, then its alternatives. */
  function Accepted(c: Spec): (r: seq<string>)
    ensures |r| == 1 + |c.alternatives| && r[0] == c.target && r[1..] == c.alternatives
  {
    [c.target] + c.alternatives
  }

  /** The length of the longest sequence. */
  function MaxLen(ss: seq<string>): (n: nat)
    requires |ss| > 0
    ensures forall i :: 0 <= i < |ss| ==> |ss[i]| <= n
    ensures exists i :: 0 <= i < |ss| && |ss[i]| == n
  {
    if |ss| == 1 then |ss[0]|
    else
      var m := MaxLen(ss[1..]);
      assert forall i :: 1 <= i < |ss| ==> ss[i] == ss[1..][i - 1];
      if |ss[0]| >= m then |ss[0]| else m
  }

  /** The longest a buffer may grow on a miss before it is cut back. */
  function Limit(c: Spec): nat
  {
    MaxLen(Accepted(c)) + 2
  }

  /** The challenge screen's state. `advancePending` counts the 1000 ms
      timers after a success not yet fired, which `stop` does not cancel. */
  datatype Session = Session(
    specs: seq<Spec>,
    active: bool,
    score: int,
    index: nat,
    buffer: string,
    advancePending: nat,
    editor: VimEditor.Editor)

  /** The constructor: the challenge list and an editor with no text yet. */
  function New(): (c: Session)
    ensures c.specs == Specs && !c.active && c.score == 0 && c.index == 0
    ensures c.buffer == "" && c.advancePending == 0
  {
    Session(Specs, false, 0, 0, "", 0, VimEditor.New())
  }

  predicate Finished(c: Session)
  {
    c.index >= |c.specs|
  }

  /** `loadChallenge`: the current challenge's code with the cursor at the
      top, and an empty buffer; after the last challenge, the closing text
      instead, with the buffer left as it is. */
  function LoadChallenge(c: Session): (r: Session)
    ensures VimEditor.WellFormed(r.editor) && r.editor.buf.cursor == Pos(0, 0)
    ensures !Finished(c) ==> r.buffer == "" && JsString.Join(r.editor.buf.lines, '\n') == c.specs[c.index].code
    ensures Finished(c) ==> r.buffer == c.buffer && JsString.Join(r.editor.buf.lines, '\n') == Done
    ensures r.(editor := c.editor, buffer := c.buffer) == c
  {
    if Finished(c) then c.(editor := VimEditor.SetCode(c.editor, Done, Pos(0, 0)))
    else c.(editor := VimEditor.SetCode(c.editor, c.specs[c.index].code, Pos(0, 0)), buffer := "")
  }

  /** `start`: score and index 0, active, the first challenge loaded. */
  function Start(c: Session): (r: Session)
    ensures r.active && r.score == 0 && r.index == 0 && r.buffer == ""
    ensures VimEditor.WellFormed(r.editor)
    ensures r.specs == c.specs && r.advancePending == c.advancePending
  {
    LoadChallenge(c.(score := 0, index := 0, active := true, buffer := ""))
  }

  /** `stop`: inactive, buffer empty. Timers after a success keep running. */
  function Stop(c: Session): (r: Session)
    ensures !r.active && r.buffer == ""
    ensures r.score == c.score && r.index == c.index && r.advancePending == c.advancePending
    ensures r.specs == c.specs && r.editor == c.editor
  {
    c.(active := false, buffer := "")
  }

  /** The buffer after a miss: kept up to `limit` characters, cut to its
      last character beyond that. */
  function Trim(buf: string, limit: nat): (r: string)
    ensures |buf| <= limit ==> r == buf
    ensures |buf| > limit ==> r == [buf[|buf| - 1]]
  {
    if |buf| > limit then JsString.SliceFrom(buf, -1) else buf
  }

  /** `handleInput`. Ignored while inactive. Otherwise the key is appended
      to the buffer and the buffer is matched against every accepted
      sequence: a match is a success (+100, and the move to the next
      challenge scheduled); a proper prefix of one is kept as it is; any
      other buffer is trimmed. The key then reaches the editor. */
  function Key(c: Session, key: string): (r: Session)
    requires c.active ==> !Finished(c) && Ok(c.editor.buf)
    ensures !c.active ==> r == c
    ensures c.active ==> && r.active && r.specs == c.specs && r.index == c.index
                         && r.editor == VimEditor.HandleKey(c.editor, key)
                         && (r.buffer == c.buffer + key || |r.buffer| <= 1)
                         && ((r.score == c.score && r.advancePending == c.advancePending)
                             || (r.score == c.score + Reward && r.advancePending == c.advancePending + 1
                                 && r.buffer in Accepted(c.specs[c.index])))
  {
    if !c.active then c
    else
      var buf := c.buffer + key;
      var spec := c.specs[c.index];
      var c1 := match Recognizer.Classify(buf, Accepted(spec))
        case Exact => c.(buffer := buf, score := c.score + Reward, advancePending := c.advancePending + 1)
        case Partial => c.(buffer := buf)
        case NoMatch => c.(buffer := Trim(buf, Limit(spec)));
      c1.(editor := VimEditor.HandleKey(c.editor, key))
  }

  /** One 1000 ms timer after a success firing: the next challenge, or the
      closing text after the last. It runs whether or not the screen is
      still active. */
  function AdvanceFired(c: Session): (r: Session)
    ensures c.advancePending == 0 ==> r == c
    ensures c.advancePending > 0 ==>
              && r.index == c.index + 1 && r.advancePending == c.advancePending - 1
              && r.score == c.score && r.active == c.active && r.specs == c.specs
              && VimEditor.WellFormed(r.editor) && r.editor.buf.cursor == Pos(0, 0)
              && (r.index < |c.specs| ==> r.buffer == "")
              && (r.index >= |c.specs| ==> r.buffer == c.buffer)
  {
    if c.advancePending == 0 then c
    else LoadChallenge(c.(index := c.index + 1, advancePending := c.advancePending - 1))
  }

  /** What can happen to the challenge screen: `start`, a key, the 1000 ms
      move after a success, `stop`, and the 1000 ms expiry of the editor's
      pending `g`, which `stop` does not cancel. */
  datatype Event = Begin | Press(key: string) | Advance | End | Expire

  /** The state every reachable challenge screen keeps: an active screen
      has a loaded, well-formed editor, and while a challenge is current
      its buffer is within that challenge's limit. */
  predicate Valid(c: Session)
  {
    && (c.active ==> VimEditor.WellFormed(c.editor))
    && (c.active && !Finished(c) ==> |c.buffer| <= Limit(c.specs[c.index]))
  }

  /** Keys reach the screen only while a challenge is current. */
  predicate Allowed(c: Session, ev: Event)
  {
    ev.Press? && c.active ==> !Finished(c)
  }

  function Apply(c: Session, ev: Event): Session
    requires Valid(c) && Allowed(c, ev)
  {
    match ev
    case Begin => Start(c)
    case Press(key) => Key(c, key)
    case Advance => AdvanceFired(c)
    case End => Stop(c)
    case Expire => c.(editor := VimEditor.GTimeout(c.editor))
  }

  /** After any key, the buffer is within the current challenge's limit,
      whatever its length before: a match or a partial match is no longer
      than the longest accepted sequence, and a trimmed buffer has one
      character. */
  lemma {:induction false} KeyBoundsBuffer(c: Session, key: string)
    requires c.active && !Finished(c) && Ok(c.editor.buf)
    ensures |Key(c, key).buffer| <= Limit(c.specs[c.index])
  {
    var buf := c.buffer + key;
    var acc := Accepted(c.specs[c.index]);
    var n := MaxLen(acc);
    match Recognizer.Classify(buf, acc)
    case Exact =>
      var i :| 0 <= i < |acc| && acc[i] == buf;
    case Partial =>
      var i :| 0 <= i < |acc| && buf < acc[i];
    case NoMatch =>
  }

  /** A key on an active screen keeps the editor well-formed and the buffer
      within the current challenge's limit. */
  lemma {:induction false} KeyKeepsValid(c: Session, key: string)
    requires Valid(c) && c.active && !Finished(c)
    ensures Valid(Key(c, key))
  {
    KeyBoundsBuffer(c, key);
    VimEditor.StepKeepsWellFormed(c.editor, VimEditor.Key(key));
  }

  /** Every event keeps the state valid. */
  lemma {:induction false} ApplyKeepsValid(c: Session, ev: Event)
    requires Valid(c) && Allowed(c, ev)
    ensures Valid(Apply(c, ev))
  {
    if ev.Press? && c.active {
      KeyKeepsValid(c, ev.key);
    }
  }

  /** No event lowers the score, and only a success raises it, by exactly
      `Reward`. Only `start` resets it. */
  lemma ScoreNeverDrops(c: Session, ev: Event)
    requires Valid(c) && Allowed(c, ev) && !ev.Begin?
    ensures var r := Apply(c, ev);
            && (r.score == c.score || r.score == c.score + Reward)
            && (r.score == c.score + Reward <==>
                  ev.Press? && c.active && (c.buffer + ev.key) in Accepted(c.specs[c.index]))
  {
  }

  /** The outcomes of a key on an active screen: a match adds `Reward` and
      schedules one move without moving yet; a proper prefix of an accepted
      sequence keeps the grown buffer and schedules nothing; anything else
      keeps the buffer up to the limit and cuts it to its last character
      beyond. The index changes only when a timer fires. */
  lemma KeyOutcomes(c: Session, key: string)
    requires c.active && !Finished(c) && Ok(c.editor.buf)
    ensures var r := Key(c, key);
            var buf := c.buffer + key;
            var acc := Accepted(c.specs[c.index]);
            && r.index == c.index && r.active && r.specs == c.specs
            && r.editor == VimEditor.HandleKey(c.editor, key)
            && (buf in acc ==> r.score == c.score + Reward && r.advancePending == c.advancePending + 1
                               && r.buffer == buf)
            && (buf !in acc && (exists i :: 0 <= i < |acc| && buf < acc[i]) ==>
                  r.score == c.score && r.advancePending == c.advancePending && r.buffer == buf)
            && ((forall i :: 0 <= i < |acc| ==> !(buf <= acc[i])) ==>
                  && r.score == c.score && r.advancePending == c.advancePending
                  && (|buf| <= Limit(c.specs[c.index]) ==> r.buffer == buf)
                  && (|buf| > Limit(c.specs[c.index]) ==> r.buffer == [buf[|buf| - 1]]))
  {
  }

  /** A timer after a success moves to exactly the next challenge. */
  lemma AdvanceMovesByOne(c: Session)
    requires c.advancePending > 0
    ensures var r := AdvanceFired(c);
            && r.index == c.index + 1 && r.score == c.score && r.active == c.active
            && (r.index < |c.specs| ==> r.buffer == "")
  {
  }

  /** The second alternative of the first challenge, typed as the keys
      `2`, `j`, `w`, is a success. */
  lemma FirstChallengeAlternative()
    ensures Recognizer.Classify("2" + "j" + "w", Accepted(Specs[0])) == Recognizer.Exact
  {
    assert "2" + "j" + "w" == Accepted(Specs[0])[1];
  }

  /** Keys are joined as text: the `Enter` key after `/total` gives the
      buffer `/totalEnter`, which no sequence of the first challenge starts
      with, so the written alternative `/total<Enter>` can only be met by
      typing its angle-bracket spelling character by character. */
  lemma EnterKeyIsNotBracketSpelling()
    ensures Recognizer.Classify("/total" + "Enter", Accepted(Specs[0])) == Recognizer.NoMatch
    ensures Recognizer.Classify("/total<Enter", Accepted(Specs[0])) == Recognizer.Partial
  {
    var acc := Accepted(Specs[0]);
    assert acc == ["jjw", "2jw", "/total<Enter>"];
    assert ("/total" + "Enter")[6] == 'E' && acc[2][6] == '<';
    assert "/total<Enter" < acc[2];
  }

  /** A run of misses on the fourth challenge (accepted `G` and `:$`, limit
      4): the buffer grows to four characters and the fifth key cuts it to
      that key alone. */
  lemma MissRunIsCut(c: Session)
    requires c.active && c.specs == Specs && c.index == 3 && Ok(c.editor.buf)
    requires c.buffer == "xxxx"
    ensures Key(c, "y").buffer == "y"
  {
    var acc := Accepted(Specs[3]);
    assert acc == ["G", ":$"];
    assert MaxLen(acc) == 2;
    assert ("xxxx" + "y")[0] == 'x';
    assert Recognizer.Classify("xxxx" + "y", acc) == Recognizer.NoMatch;
  }
}

=== FILE: cursor_model.dfy ===
/**
 * The editor's text and cursor. Coordinates are unbounded integers on
 * purpose: a `j` or `k` onto an empty line leaves the column at -1, and
 * nothing in the editor pulls it back.
 */
module CursorModel {
  import opened Wrappers
  import JsString

  datatype Pos = Pos(line: int, col: int)

  /** The lines of the edited text and the cursor into them. */
  datatype Buffer = Buffer(lines: seq<string>, cursor: Pos)

  /** `p` names an existing line. Every editor operation reads
      `lines[cursor.line]` unguarded, so this is what they rely on. */
  predicate OnLine(lines: seq<string>, p: Pos)
  {
    0 <= p.line < |lines|
  }

  /** `p` names an existing character. */
  predicate OnChar(lines: seq<string>, p: Pos)
  {
    OnLine(lines, p) && 0 <= p.col < |lines[p.line]|
  }

  /** The character at `p`, if there is one. */
  function Cell(lines: seq<string>, p: Pos): Option<char>
  {
    if OnLine(lines, p) then JsString.At(lines[p.line], p.col) else None
  }

  /** Reading order: `p` comes strictly before `q`. */
  predicate Before(p: Pos, q: Pos)
  {
    p.line < q.line || (p.line == q.line && p.col < q.col)
  }

  /** The cursor's line, when it exists. */
  predicate Ok(b: Buffer)
  {
    OnLine(b.lines, b.cursor)
  }

  function CurrentLine(b: Buffer): string
    requires Ok(b)
  {
    b.lines[b.cursor.line]
  }

  /** `Math.max(0, |line| - 1)`: the last column NORMAL mode uses. */
  function LastCol(line: string): nat
  {
    if |line| == 0 then 0 else |line| - 1
  }

  function Min(a: int, b: int): int
  {
    if a <= b then a else b
  }
}

=== FILE: js_string.dfy ===
/**
 * The JavaScript string primitives the editor and the recognizers rely on,
 * with JavaScript's own treatment of negative and out-of-range indices:
 * `s[i]`, `slice`, `indexOf`, and `split` on a one-character separator.
 */
module JsString {
  import opened Wrappers

  /** `s[i]`: the character at `i`, or `undefined` outside the string. */
  function At(s: string, i: int): Option<char>
  {
    if 0 <= i < |s| then Some(s[i]) else None
  }

  /** How `slice` reads an index: a negative one counts back from the end,
      and the result is clamped into `[0, |s|]`. */
  function SliceIndex(i: int, len: nat): (k: nat)
    ensures k <= len
  {
    if i < 0 then (if len + i < 0 then 0 else len + i)
    else if i > len then len
    else i
  }

  /** `s.slice(start, end)`. */
  function Slice(s: string, start: int, end: int): string
  {
    var a := SliceIndex(start, |s|);
    var b := SliceIndex(end, |s|);
    if a < b then s[a..b] else []
  }

  /** `s.slice(start)`. */
  function SliceFrom(s: string, start: int): string
  {
    Slice(s, start, |s|)
  }

  /** `s.slice(0, i)` is the prefix up to the normalised index. */
  lemma SliceHead(s: string, i: int)
    ensures Slice(s, 0, i) == s[..SliceIndex(i, |s|)]
  {
  }

  /** `s.slice(i)` is the suffix from the normalised index. */
  lemma SliceTail(s: string, i: int)
    ensures SliceFrom(s, i) == s[SliceIndex(i, |s|)..]
  {
  }

  function Max0(i: int): nat
  {
    if i < 0 then 0 else i
  }

  /** `s.indexOf(c, from)`: the first position at or after `from` (read as 0
      when negative) that holds `c`, or -1 when there is none. */
  function IndexOf(s: string, c: char, from: int): (r: int)
    ensures r == -1 || (Max0(from) <= r < |s| && s[r] == c)
    ensures r == -1 ==> forall k :: Max0(from) <= k < |s| ==> s[k] != c
    ensures r != -1 ==> forall k :: Max0(from) <= k < r ==> s[k] != c
    decreases |s| - from
  {
    if from < 0 then IndexOf(s, c, 0)
    else if from >= |s| then -1
    else if s[from] == c then from
    else IndexOf(s, c, from + 1)
  }

  /** `s.split(sep)` for a one-character separator: the maximal pieces
      between separators, including empty ones at either end. */
  function Split(s: string, sep: char): (r: seq<string>)
    ensures |r| >= 1
    ensures forall i :: 0 <= i < |r| ==> sep !in r[i]
    decreases |s|
  {
    if |s| == 0 then [[]]
    else
      var rest := Split(s[1..], sep);
      if s[0] == sep then [[]] + rest
      else [[s[0]] + rest[0]] + rest[1..]
  }

  /** `pieces.join(sep)`. */
  function Join(pieces: seq<string>, sep: char): string
  {
    if |pieces| == 0 then []
    else if |pieces| == 1 then pieces[0]
    else pieces[0] + [sep] + Join(pieces[1..], sep)
  }

  /** Joining the pieces of a split gives back the string. */
  lemma {:induction false} JoinSplit(s: string, sep: char)
    ensures Join(Split(s, sep), sep) == s
    decreases |s|
  {
    if |s| > 0 {
      var rest := Split(s[1..], sep);
      JoinSplit(s[1..], sep);
      if s[0] == sep {
        assert Split(s, sep) == [[]] + rest;
        assert s == [sep] + s[1..];
      } else {
        var r := Split(s, sep);
        assert r == [[s[0]] + rest[0]] + rest[1..];
        if |rest| == 1 {
          assert Join(rest, sep) == rest[0];
          assert s == [s[0]] + s[1..];
        } else {
          assert Join(rest, sep) == rest[0] + [sep] + Join(rest[1..], sep);
          assert r[1..] == rest[1..];
          assert s == [s[0]] + s[1..];
        }
      }
    }
  }

  /** Splitting a piece-free string gives that string alone. */
  lemma {:induction false} SplitPiece(a: string, sep: char)
    requires sep !in a
    ensures Split(a, sep) == [a]
    decreases |a|
  {
    if |a| > 0 {
      assert sep !in a[1..];
      SplitPiece(a[1..], sep);
      assert [a[0]] + a[1..] == a;
    }
  }

  /** A separator after a separator-free head starts a new piece. */
  lemma {:induction false} SplitAfterPiece(a: string, sep: char, b: string)
    requires sep !in a
    ensures Split(a + [sep] + b, sep) == [a] + Split(b, sep)
    decreases |a|
  {
    if |a| == 0 {
      assert a + [sep] + b == [sep] + b;
      assert ([sep] + b)[1..] == b;
    } else {
      var s := a + [sep] + b;
      assert s[0] == a[0];
      assert s[1..] == a[1..] + [sep] + b;
      assert sep !in a[1..];
      SplitAfterPiece(a[1..], sep, b);
      assert [a[0]] + a[1..] == a;
    }
  }

  /** Splitting the join of separator-free pieces gives back the pieces. */
  lemma {:induction false} SplitJoin(pieces: seq<string>, sep: char)
    requires |pieces| >= 1
    requires forall i :: 0 <= i < |pieces| ==> sep !in pieces[i]
    ensures Split(Join(pieces, sep), sep) == pieces
    decreases |pieces|
  {
    if |pieces| == 1 {
      SplitPiece(pieces[0], sep);
    } else {
      SplitJoin(pieces[1..], sep);
      SplitAfterPiece(pieces[0], sep, Join(pieces[1..], sep));
      assert [pieces[0]] + pieces[1..] == pieces;
    }
  }
}

=== FILE: modes.dfy ===
/**
 * The difficulty modes of js/mode.js: an identifier and the key set the
 * practice screen draws its targets from.
 */
module Modes {

  datatype Mode = Mode(id: string, keys: seq<string>)

  const Easy := Mode("easy", ["h", "j", "k", "l"])
  const Medium := Mode("medium", ["h", "j", "k", "l", "w", "b", "$", "%", "gg", "G"])
  const Hard := Mode("hard", ["h", "j", "k", "l", "w", "b", "$", "%", "gg", "G", "0", "^", "e", "ge", "{", "}", "(", ")"])
  const Meister := Mode("meister", [
    "h", "j", "k", "l",
    "w", "b", "e", "ge",
    "0", "^", "$",
    "gg", "G", "{", "}", "(", ")",
    "H", "M", "L",
    "f", "F", "t", "T",
    "*", "#", "n", "N", "/", "?",
    "%",
    "''", "``",
    "Ctrl+d", "Ctrl+u", "Ctrl+f", "Ctrl+b", "Ctrl+e", "Ctrl+y"])

  /** `getMode`: the mode named `id`, or `easy` for any other name. */
  function GetMode(id: string): (m: Mode)
    ensures id in ["easy", "medium", "hard", "meister"] ==> m.id == id
    ensures id !in ["easy", "medium", "hard", "meister"] ==> m == Easy
    ensures |m.keys| >= 4 && m.keys[0] == "h" && m.keys[1] == "j" && m.keys[2] == "k" && m.keys[3] == "l"
  {
    if id == "easy" then Easy
    else if id == "medium" then Medium
    else if id == "hard" then Hard
    else if id == "meister" then Meister
    else Easy
  }

  /** Each harder mode up to `hard` extends the key set before it. */
  lemma KeySetsGrow()
    ensures Easy.keys < Medium.keys < Hard.keys
  {
  }
}

=== FILE: motions.dfy ===
/**
 * `moveCursor` of js/vim-editor.js: the motions `h l j k w b $ 0 gg G %`,
 * each followed by the closing column clamp.
 */
module Motions {
  import opened Wrappers
  import opened CursorModel
  import opened JsString
  import opened Brackets

  /** The clamp that closes every motion: on a non-empty line a column at or
      past the end is pulled back to the last character; an empty line is
      not clamped at all. */
  function ClampCol(line: string, col: int): int
  {
    if |line| > 0 && col >= |line| then |line| - 1 else col
  }

  /** `w`: from before the last character, one past the next space after the
      cursor, or the last character when no space follows. */
  function WordForward(line: string, col: int): int
  {
    if col < |line| - 1 then
      var k := IndexOf(line, ' ', col + 1);
      if k == -1 then |line| - 1 else k + 1
    else col
  }

  /** First loop of `b`: step back over spaces, never past column 0. */
  function SkipSpacesBack(line: string, c: int): (r: int)
    ensures r <= c
    ensures 0 <= c ==> 0 <= r
    ensures r <= 0 || At(line, r) != Some(' ')
    ensures forall k :: r < k <= c ==> At(line, k) == Some(' ')
    decreases c
  {
    if c > 0 && At(line, c) == Some(' ') then SkipSpacesBack(line, c - 1) else c
  }

  /** Second loop of `b`: step back while the character before is not a
      space, never past column 0. */
  function SkipWordBack(line: string, c: int): (r: int)
    ensures r <= c
    ensures 0 <= c ==> 0 <= r
    ensures r <= 0 || At(line, r - 1) == Some(' ')
    ensures forall k :: r <= k < c ==> At(line, k) != Some(' ')
    decreases c
  {
    if c > 0 && At(line, c - 1) != Some(' ') then SkipWordBack(line, c - 1) else c
  }

  /** `b`: from after column 0, back over spaces and then to the start of
      the word reached. */
  function WordBack(line: string, col: int): int
  {
    if col > 0 then SkipWordBack(line, SkipSpacesBack(line, col - 1)) else col
  }

  /** The `switch` of `moveCursor`, before the closing clamp. An unknown
      motion name leaves the cursor where it is. */
  function Motion(lines: seq<string>, cur: Pos, key: string): (r: Pos)
    requires OnLine(lines, cur)
    ensures OnLine(lines, r)
    ensures key !in ["h", "l", "j", "k", "w", "b", "$", "0", "gg", "G", "%"] ==> r == cur
    ensures key in ["h", "l", "w", "b", "$", "0"] ==> r.line == cur.line
    ensures key in ["j", "k"] ==> cur.line - 1 <= r.line <= cur.line + 1
    ensures key == "%" && r != cur ==> OnBracket(lines, cur) && Cell(lines, r) == Partner(Cell(lines, cur).value)
  {
    var line := lines[cur.line];
    if key == "h" then (if cur.col > 0 then cur.(col := cur.col - 1) else cur)
    else if key == "l" then (if cur.col < |line| - 1 then cur.(col := cur.col + 1) else cur)
    else if key == "j" then
      (if cur.line < |lines| - 1 then Pos(cur.line + 1, Min(cur.col, |lines[cur.line + 1]| - 1)) else cur)
    else if key == "k" then
      (if cur.line > 0 then Pos(cur.line - 1, Min(cur.col, |lines[cur.line - 1]| - 1)) else cur)
    else if key == "w" then cur.(col := WordForward(line, cur.col))
    else if key == "b" then cur.(col := WordBack(line, cur.col))
    else if key == "$" then cur.(col := LastCol(line))
    else if key == "0" then cur.(col := 0)
    else if key == "gg" then Pos(0, 0)
    else if key == "G" then Pos(|lines| - 1, 0)
    else if key == "%" then MatchBracket(lines, cur)
    else cur
  }

  /** `moveCursor`: the motion, then the column clamp against the line the
      cursor ends on. */
  function MoveCursor(lines: seq<string>, cur: Pos, key: string): (r: Pos)
    requires OnLine(lines, cur)
    ensures OnLine(lines, r)
    ensures |lines[r.line]| > 0 ==> r.col <= |lines[r.line]| - 1
    ensures key !in {"j", "k", "gg", "G", "%"} ==> r.line == cur.line
    ensures -1 <= cur.col <= LastCol(lines[cur.line]) ==> -1 <= r.col <= LastCol(lines[r.line])
  {
    var m := Motion(lines, cur, key);
    m.(col := ClampCol(lines[m.line], m.col))
  }

  /** `h` steps one column left and stops at column 0; it never takes a
      column that is not negative below 0. */
  lemma MotionLeft(lines: seq<string>, cur: Pos)
    requires OnLine(lines, cur) && cur.col <= |lines[cur.line]|
    ensures var r := MoveCursor(lines, cur, "h");
            && r.line == cur.line
            && (cur.col > 0 ==> r.col == cur.col - 1)
            && (cur.col <= 0 ==> r.col == cur.col)
            && (cur.col >= 0 ==> r.col >= 0)
  {
  }

  /** `l` steps one column right and stops at the last character. */
  lemma MotionRight(lines: seq<string>, cur: Pos)
    requires OnLine(lines, cur) && cur.col <= LastCol(lines[cur.line])
    ensures var r := MoveCursor(lines, cur, "l");
            && r.line == cur.line
            && (cur.col < |lines[cur.line]| - 1 ==> r.col == cur.col + 1)
            && (cur.col >= |lines[cur.line]| - 1 ==> r.col == cur.col)
  {
  }

  /** `j` moves down exactly one line when there is one, keeping the column
      but no further right than the new line's last index (-1 on an empty
      line); on the last line it does nothing. */
  lemma MotionDown(lines: seq<string>, cur: Pos)
    requires OnLine(lines, cur) && cur.col <= LastCol(lines[cur.line])
    ensures var r := MoveCursor(lines, cur, "j");
            && (cur.line < |lines| - 1 ==> r == Pos(cur.line + 1, Min(cur.col, |lines[cur.line + 1]| - 1)))
            && (cur.line == |lines| - 1 ==> r == cur)
  {
  }

  /** `k` moves up exactly one line when there is one, with the same column
      rule as `j`; on the first line it does nothing. */
  lemma MotionUp(lines: seq<string>, cur: Pos)
    requires OnLine(lines, cur) && cur.col <= LastCol(lines[cur.line])
    ensures var r := MoveCursor(lines, cur, "k");
            && (cur.line > 0 ==> r == Pos(cur.line - 1, Min(cur.col, |lines[cur.line - 1]| - 1)))
            && (cur.line == 0 ==> r == cur)
  {
  }

  /** `j` then `k` returns to the starting cell when both lines are long
      enough to hold its column. */
  lemma DownThenUp(lines: seq<string>, cur: Pos)
    requires OnLine(lines, cur) && cur.line < |lines| - 1
    requires 0 <= cur.col < |lines[cur.line]| && cur.col < |lines[cur.line + 1]|
    ensures MoveCursor(lines, MoveCursor(lines, cur, "j"), "k") == cur
  {
  }

  /** `w` stays on its line. Before the last character it lands one past the
      first space after the cursor (pulled back to the last character when
      that space ends the line), or on the last character when no space
      follows; otherwise it does nothing. */
  lemma MotionWordForward(lines: seq<string>, cur: Pos)
    requires OnLine(lines, cur) && -1 <= cur.col <= LastCol(lines[cur.line])
    ensures var line := lines[cur.line];
            var r := MoveCursor(lines, cur, "w");
            && r.line == cur.line
            && (cur.col >= |line| - 1 ==> r.col == cur.col)
            && (cur.col < |line| - 1 && (forall k :: cur.col < k < |line| ==> line[k] != ' ') ==> r.col == |line| - 1)
            && (forall s :: cur.col < s < |line| && line[s] == ' ' && (forall k :: cur.col < k < s ==> line[k] != ' ')
                  ==> r.col == Min(s + 1, |line| - 1))
  {
    var line := lines[cur.line];
    if cur.col < |line| - 1 {
      var k := IndexOf(line, ' ', cur.col + 1);
      assert Max0(cur.col + 1) == cur.col + 1;
      forall s | cur.col < s < |line| && line[s] == ' ' && (forall k :: cur.col < k < s ==> line[k] != ' ')
        ensures k == s
      {
      }
    }
  }

  /** `b` stays on its line. From column `col > 0` it lands on a column `r`
      before `col` that is 0 or starts a word (a space before, none on it),
      and from `r` up to the cursor the line is one word followed only by
      spaces, so no word starts in between. */
  lemma MotionWordBack(lines: seq<string>, cur: Pos)
    requires OnLine(lines, cur) && 0 < cur.col <= LastCol(lines[cur.line])
    ensures var line := lines[cur.line];
            var r := MoveCursor(lines, cur, "b");
            && r.line == cur.line
            && 0 <= r.col < cur.col
            && (r.col == 0 || (line[r.col - 1] == ' ' && line[r.col] != ' '))
            && (forall j :: r.col <= j < cur.col && line[j] == ' ' ==>
                  forall k :: j <= k < cur.col ==> line[k] == ' ')
  {
    var line := lines[cur.line];
    var q := SkipSpacesBack(line, cur.col - 1);
    var p := SkipWordBack(line, q);
    assert WordBack(line, cur.col) == p;
    if p > 0 {
      assert At(line, p) != Some(' ');
    }
    forall j | p <= j < cur.col && line[j] == ' '
      ensures forall k :: j <= k < cur.col ==> line[k] == ' '
    {
      assert At(line, j) == Some(' ');
      assert q <= j;
      forall k | j <= k < cur.col
        ensures line[k] == ' '
      {
        if k > q {
          assert At(line, k) == Some(' ');
        }
      }
    }
  }

  /** `$` lands on `max(0, |line| - 1)`. */
  lemma MotionLineEnd(lines: seq<string>, cur: Pos)
    requires OnLine(lines, cur)
    ensures MoveCursor(lines, cur, "$") == Pos(cur.line, LastCol(lines[cur.line]))
  {
  }

  /** `0` lands on column 0. */
  lemma MotionLineStart(lines: seq<string>, cur: Pos)
    requires OnLine(lines, cur)
    ensures MoveCursor(lines, cur, "0") == Pos(cur.line, 0)
  {
  }

  /** `gg` lands on (0, 0) and `G` on (last line, 0). */
  lemma MotionTopBottom(lines: seq<string>, cur: Pos)
    requires OnLine(lines, cur)
    ensures MoveCursor(lines, cur, "gg") == Pos(0, 0)
    ensures MoveCursor(lines, cur, "G") == Pos(|lines| - 1, 0)
  {
  }

  /** `%` off a bracket does nothing; when it moves, it lands on the partner
      bracket, later for `( { [` and earlier for `) } ]`. */
  lemma MotionPercent(lines: seq<string>, cur: Pos)
    requires OnLine(lines, cur) && cur.col <= LastCol(lines[cur.line])
    ensures var r := MoveCursor(lines, cur, "%");
            && (!OnBracket(lines, cur) ==> r == cur)
            && (r != cur ==>
                  && OnChar(lines, r)
                  && Cell(lines, r) == Partner(Cell(lines, cur).value)
                  && (Opens(Cell(lines, cur).value) ==> Before(cur, r))
                  && (!Opens(Cell(lines, cur).value) ==> Before(r, cur)))
  {
  }
}

=== FILE: mutations.dfy ===
/**
 * The text edits of js/vim-editor.js: `insertChar`, `backspace` and
 * `deleteChar`. Each cuts the cursor's line with `slice`, so a column
 * outside the line (the -1 left by `j`/`k` onto an empty line) is read the
 * way `slice` reads it: counted back from the end.
 */
module Mutations {
  import opened CursorModel
  import opened JsString

  /** `insertChar`: splice `ch` into the cursor's line at the cursor column,
      as `slice` reads it, and step the column right by one. */
  function InsertChar(b: Buffer, ch: char): (r: Buffer)
    requires Ok(b)
    ensures Ok(r) && r.cursor == b.cursor.(col := b.cursor.col + 1)
    ensures var line := CurrentLine(b);
            var a := SliceIndex(b.cursor.col, |line|);
            r.lines == b.lines[b.cursor.line := line[..a] + [ch] + line[a..]]
    ensures -1 <= b.cursor.col <= |CurrentLine(b)| ==> 0 <= r.cursor.col <= |CurrentLine(r)|
  {
    var line := CurrentLine(b);
    var col := b.cursor.col;
    SliceHead(line, col);
    SliceTail(line, col);
    Buffer(b.lines[b.cursor.line := Slice(line, 0, col) + [ch] + SliceFrom(line, col)], b.cursor.(col := col + 1))
  }

  /** `backspace`: after column 0, remove the character left of the cursor;
      at column 0 below the first line, append the line to the previous one,
      drop it, and put the cursor at the join; on the first line's column 0,
      nothing. */
  function Backspace(b: Buffer): (r: Buffer)
    requires Ok(b)
    ensures Ok(r)
    ensures var line := CurrentLine(b);
            var c := b.cursor.col;
            0 < c <= |line| ==>
              && r.cursor == b.cursor.(col := c - 1)
              && r.lines == b.lines[b.cursor.line := line[..c - 1] + line[c..]]
    ensures var l := b.cursor.line;
            b.cursor.col <= 0 && l > 0 ==>
              && |r.lines| == |b.lines| - 1
              && r.cursor == Pos(l - 1, |b.lines[l - 1]|)
              && r.lines == b.lines[..l - 1] + [b.lines[l - 1] + b.lines[l]] + b.lines[l + 1..]
    ensures b.cursor.col <= 0 && b.cursor.line == 0 ==> r == b
    ensures -1 <= b.cursor.col <= |CurrentLine(b)| ==> -1 <= r.cursor.col <= |CurrentLine(r)|
  {
    var line := CurrentLine(b);
    var col := b.cursor.col;
    var l := b.cursor.line;
    if col > 0 then
      SliceHead(line, col - 1);
      SliceTail(line, col);
      Buffer(b.lines[l := Slice(line, 0, col - 1) + SliceFrom(line, col)], b.cursor.(col := col - 1))
    else if l > 0 then
      var prev := b.lines[l - 1];
      Buffer(b.lines[..l - 1] + [prev + line] + b.lines[l + 1..], Pos(l - 1, |prev|))
    else b
  }

  /** `deleteChar`: on a non-empty line, cut the character at the cursor
      (as `slice` reads the column) and step back one column when the cursor
      is left past the new end; an empty line is left alone. */
  function DeleteChar(b: Buffer): (r: Buffer)
    requires Ok(b)
    ensures Ok(r) && r.cursor.line == b.cursor.line && |r.lines| == |b.lines|
    ensures |CurrentLine(b)| == 0 ==> r == b
    ensures var line := CurrentLine(b);
            var c := b.cursor.col;
            0 <= c < |line| ==>
              && r.lines == b.lines[b.cursor.line := line[..c] + line[c + 1..]]
              && r.cursor.col == (if c == |line| - 1 && c > 0 then c - 1 else c)
    ensures -1 <= b.cursor.col <= LastCol(CurrentLine(b)) ==> -1 <= r.cursor.col <= LastCol(CurrentLine(r))
  {
    var line := CurrentLine(b);
    var col := b.cursor.col;
    if |line| > 0 then
      SliceHead(line, col);
      SliceTail(line, col + 1);
      var cut := Slice(line, 0, col) + SliceFrom(line, col + 1);
      var col' := if col >= |cut| && col > 0 then col - 1 else col;
      Buffer(b.lines[b.cursor.line := cut], b.cursor.(col := col'))
    else b
  }

  /** Backspace right after inserting a character, on the same line, gives
      back the buffer as it was. */
  lemma BackspaceUndoesInsert(b: Buffer, ch: char)
    requires Ok(b) && 0 <= b.cursor.col <= |CurrentLine(b)|
    ensures Backspace(InsertChar(b, ch)) == b
  {
    var line := CurrentLine(b);
    var c := b.cursor.col;
    var line' := line[..c] + [ch] + line[c..];
    assert line'[..c] + line'[c + 1..] == line;
    assert b.lines[b.cursor.line := line] == b.lines;
  }

  /** With the cursor at -1 on a non-empty line (reachable by `j`/`k` across
      an empty line), `deleteChar` does not delete: `slice(0, -1)` keeps all
      but the last character and `slice(0)` the whole line, so the line grows
      to its head followed by the whole of itself. */
  lemma DeleteAtMinusOneDuplicates(b: Buffer)
    requires Ok(b) && b.cursor.col == -1 && |CurrentLine(b)| > 0
    ensures var line := CurrentLine(b);
            var r := DeleteChar(b);
            r.cursor == b.cursor && CurrentLine(r) == line[..|line| - 1] + line
  {
  }
}

=== FILE: practice.dfy ===
/**
 * The practice screen of js/practice.js: a random target drawn from the
 * mode's key set, +10 for typing it, a floored -5 for a wrong key, and an
 * 800 ms buffer clear after a partial match. The random draw is a
 * parameter (`pick`, an index into the key set), and the two timers are
 * explicit events: the 800 ms clear and the 200 ms move to the next
 * target after a hit.
 */
module Practice {
  import opened Wrappers
  import opened CursorModel
  import JsString
  import VimEditor
  import Recognizer
  import Modes

  /** The lines of the text the practice editor opens on; the cursor starts
      at (2, 4), on `pass`. */
  const CodeLines: seq<string> := ["def practice():", "    # Type the keys shown above", "    pass"]

  const Code: string := JsString.Join(CodeLines, '\n')

  /** Points for typing the target and for a wrong key. */
  const Hit := 10
  const Miss := 5

  /** The practice screen's state. `target` is `currentKey` (unset before
      the first start); `clearArmed` says an 800 ms clear is pending;
      `advancePending` counts the 200 ms next-target timers not yet fired,
      which `stop` does not cancel. */
  datatype Session = Session(
    active: bool,
    keys: seq<string>,
    target: Option<string>,
    score: int,
    buffer: string,
    clearArmed: bool,
    advancePending: nat,
    editor: VimEditor.Editor)

  /** The constructor, with the editor already loaded on the practice
      text. */
  function New(): (p: Session)
    ensures !p.active && p.score == 0 && p.buffer == "" && p.target == None
    ensures !p.clearArmed && p.advancePending == 0
    ensures VimEditor.WellFormed(p.editor) && p.editor.buf.cursor == Pos(2, 4)
    ensures JsString.Join(p.editor.buf.lines, '\n') == Code
  {
    JsString.SplitJoin(CodeLines, '\n');
    Session(false, [], None, 0, "", false, 0, VimEditor.SetCode(VimEditor.New(), Code, Pos(2, 4)))
  }

  /** `Math.max(0, score - 5)`. */
  function Penalize(score: int): (r: int)
    ensures r >= 0 && r <= (if score > 0 then score else 0)
    ensures score >= Miss ==> r == score - Miss
    ensures score < Miss ==> r == 0
  {
    if score - Miss > 0 then score - Miss else 0
  }

  /** `nextKey`: while active, make `keys[pick]` the target and empty the
      buffer; while inactive, nothing. */
  function NextKey(p: Session, pick: nat): (r: Session)
    requires p.active ==> pick < |p.keys|
    ensures !p.active ==> r == p
    ensures p.active ==> r.target.Some? && r.target.value in p.keys && r.buffer == ""
    ensures r.active == p.active && r.keys == p.keys && r.score == p.score && r.editor == p.editor
    ensures r.clearArmed == p.clearArmed && r.advancePending == p.advancePending
  {
    if !p.active then p else p.(target := Some(p.keys[pick]), buffer := "")
  }

  /** `start(keys)`: score 0, active, the first target drawn. A pending
      clear is not cancelled. */
  function Start(p: Session, keys: seq<string>, pick: nat): (r: Session)
    requires pick < |keys|
    ensures r.active && r.score == 0 && r.buffer == "" && r.keys == keys
    ensures r.target == Some(keys[pick]) && r.target.value in keys
    ensures r.editor == p.editor && r.clearArmed == p.clearArmed && r.advancePending == p.advancePending
  {
    NextKey(p.(keys := keys, score := 0, active := true, buffer := ""), pick)
  }

  /** `stop`: inactive, buffer empty, the pending clear cancelled. */
  function Stop(p: Session): (r: Session)
    ensures !r.active && r.buffer == "" && !r.clearArmed
    ensures r.score == p.score && r.advancePending == p.advancePending && r.editor == p.editor
    ensures r.keys == p.keys && r.target == p.target
  {
    p.(active := false, buffer := "", clearArmed := false)
  }

  /** `handleWrongKey`: empty the buffer and take off `Miss` points, but
      never below zero. */
  function WrongKey(p: Session): (r: Session)
    ensures r.buffer == "" && r.score == Penalize(p.score)
    ensures r.active == p.active && r.keys == p.keys && r.target == p.target && r.editor == p.editor
    ensures r.clearArmed == p.clearArmed && r.advancePending == p.advancePending
  {
    p.(buffer := "", score := Penalize(p.score))
  }

  /** `handleInput`. Ignored while inactive. Otherwise the pending clear is
      cancelled, the key is appended to the buffer, and the buffer is
      classified against the target: a hit scores and schedules the next
      target (the buffer is left as it is until then), a proper prefix arms
      a clear, and anything else is a wrong key. The key then reaches the
      editor. */
  function Key(p: Session, key: string): (r: Session)
    requires Ok(p.editor.buf)
    requires p.active ==> p.target.Some?
    ensures !p.active ==> r == p
    ensures p.active ==> && r.active && r.keys == p.keys && r.target == p.target
                         && r.editor == VimEditor.HandleKey(p.editor, key)
                         && r.buffer <= p.target.value
                         && (r.score == p.score || r.score == p.score + Hit || r.score == Penalize(p.score))
                         && (r.advancePending == p.advancePending
                             || (r.advancePending == p.advancePending + 1 && r.score == p.score + Hit
                                 && r.buffer == p.target.value))
  {
    if !p.active then p
    else
      var buf := p.buffer + key;
      Recognizer.ClassifySingle(buf, p.target.value);
      var p1 := p.(clearArmed := false, buffer := buf);
      var p2 := match Recognizer.Classify(buf, [p.target.value])
        case Exact => p1.(score := p.score + Hit, advancePending := p.advancePending + 1)
        case Partial => p1.(clearArmed := true)
        case NoMatch => WrongKey(p1);
      p2.(editor := VimEditor.HandleKey(p.editor, key))
  }

  /** The 800 ms clear firing: the buffer is emptied. */
  function ClearFired(p: Session): (r: Session)
    ensures !r.clearArmed && r.buffer == (if p.clearArmed then "" else p.buffer)
    ensures r.active == p.active && r.target == p.target && r.score == p.score
    ensures r.advancePending == p.advancePending && r.editor == p.editor
  {
    if p.clearArmed then p.(buffer := "", clearArmed := false) else p
  }

  /** One 200 ms timer after a hit firing: `nextKey`, which does nothing
      once the screen is stopped. */
  function AdvanceFired(p: Session, pick: nat): (r: Session)
    requires p.active ==> pick < |p.keys|
    ensures p.advancePending == 0 ==> r == p
    ensures p.advancePending > 0 ==> r.advancePending == p.advancePending - 1
    ensures r.active == p.active && r.keys == p.keys && r.score == p.score
    ensures r.clearArmed == p.clearArmed && r.editor == p.editor
    ensures p.active && p.advancePending > 0 ==> r.target.Some? && r.target.value in p.keys && r.buffer == ""
    ensures !p.active ==> r.target == p.target && r.buffer == p.buffer
  {
    if p.advancePending == 0 then p else NextKey(p.(advancePending := p.advancePending - 1), pick)
  }

  /** What can happen to the practice screen: `start`, a key, the 800 ms
      clear, the 200 ms next-target timer, `stop`, and the 1000 ms expiry
      of the editor's pending `g`, which `stop` does not cancel. */
  datatype Event =
    | Begin(keys: seq<string>, pick: nat)
    | Press(key: string)
    | Clear
    | Advance(pick: nat)
    | End
    | Expire

  /** The state every reachable practice screen keeps: the score is never
      negative, an active screen has a target from its key set, and the
      editor's invariant holds. */
  predicate Valid(p: Session)
  {
    && p.score >= 0
    && (p.active ==> p.target.Some? && p.target.value in p.keys)
    && VimEditor.WellFormed(p.editor)
  }

  /** The events the environment can deliver: a start needs a draw from a
      non-empty key set, and so does a next-target timer on an active
      screen. */
  predicate Allowed(p: Session, ev: Event)
  {
    match ev
    case Begin(keys, pick) => pick < |keys|
    case Advance(pick) => p.active ==> pick < |p.keys|
    case _ => true
  }

  function Apply(p: Session, ev: Event): Session
    requires Valid(p) && Allowed(p, ev)
  {
    match ev
    case Begin(keys, pick) => Start(p, keys, pick)
    case Press(key) => Key(p, key)
    case Clear => ClearFired(p)
    case Advance(pick) => AdvanceFired(p, pick)
    case End => Stop(p)
    case Expire => p.(editor := VimEditor.GTimeout(p.editor))
  }

  /** Every event keeps the state valid; in particular the score never goes
      below zero. */
  lemma {:induction false} ApplyKeepsValid(p: Session, ev: Event)
    requires Valid(p) && Allowed(p, ev)
    ensures Valid(Apply(p, ev))
  {
    if ev.Press? && p.active {
      VimEditor.StepKeepsWellFormed(p.editor, VimEditor.Key(ev.key));
    } else if ev.Expire? {
      VimEditor.StepKeepsWellFormed(p.editor, VimEditor.GExpired);
    }
  }

  /** While inactive a key changes nothing. */
  lemma InactiveIgnoresKeys(p: Session, key: string)
    requires Ok(p.editor.buf) && !p.active
    ensures Key(p, key) == p
  {
  }

  /** The three outcomes of a key on an active screen: typing the target
      adds exactly `Hit` and schedules one next-target timer; a proper
      prefix keeps the score, keeps the grown buffer and arms the clear; any
      other buffer is a wrong key, which empties the buffer and takes off
      `Miss` points down to zero. Only a hit changes the pending timers. */
  lemma KeyOutcomes(p: Session, key: string)
    requires Ok(p.editor.buf) && p.active && p.target.Some?
    ensures var r := Key(p, key);
            var buf := p.buffer + key;
            var want := p.target.value;
            && r.active && r.target == p.target && r.keys == p.keys
            && r.editor == VimEditor.HandleKey(p.editor, key)
            && (buf == want ==> r.score == p.score + Hit && r.advancePending == p.advancePending + 1
                                && r.buffer == buf && !r.clearArmed)
            && (buf < want ==> r.score == p.score && r.advancePending == p.advancePending
                               && r.buffer == buf && r.clearArmed)
            && (!(buf <= want) ==> r.score == Penalize(p.score) && r.advancePending == p.advancePending
                                   && r.buffer == "" && !r.clearArmed)
  {
    Recognizer.ClassifySingle(p.buffer + key, p.target.value);
  }

  /** A key pressed after a hit and before the next target is drawn counts
      as wrong: the buffer still holds the target, and nothing starts with
      the target followed by more text. */
  lemma KeyAfterHitIsWrong(p: Session, key: string)
    requires Ok(p.editor.buf) && p.active && p.target.Some?
    requires p.buffer == p.target.value && key != ""
    ensures Key(p, key).score == Penalize(p.score)
    ensures Key(p, key).buffer == ""
  {
    KeyOutcomes(p, key);
  }

  /** Typing the target `gg` from an empty buffer, one `g` at a time,
      scores once: the first `g` is a partial match, the second a hit. */
  lemma TypingGgScoresOnce(p: Session)
    requires VimEditor.WellFormed(p.editor) && p.active
    requires p.target == Some("gg") && p.buffer == ""
    ensures var p2 := Key(Key(p, "g"), "g");
            p2.score == p.score + Hit && p2.advancePending == p.advancePending + 1
  {
    KeyOutcomes(p, "g");
    var p1 := Key(p, "g");
    assert p1.buffer == "g";
    KeyOutcomes(p1, "g");
  }

  /** The app starts practice with the key set of the mode `getMode` looked
      up. Every such set has at least four keys, so a draw from its first
      four is always allowed, and the target drawn is one of the mode's
      keys. */
  lemma StartWithModeKeys(p: Session, id: string, pick: nat)
    ensures pick < 4 ==> Allowed(p, Begin(Modes.GetMode(id).keys, pick))
    ensures Allowed(p, Begin(Modes.GetMode(id).keys, pick)) <==> pick < |Modes.GetMode(id).keys|
    ensures pick < |Modes.GetMode(id).keys| ==>
              var r := Start(p, Modes.GetMode(id).keys, pick);
              r.active && r.target.Some? && r.target.value in Modes.GetMode(id).keys
  {
  }
}

=== FILE: recognizer.dfy ===
/**
 * The key-sequence recognizer shared, in three copies, by the tutorial, the
 * practice and the challenge controllers: the pressed keys are appended as
 * text to a string buffer, which is then compared with the accepted
 * sequences. Keys are concatenated as text, so `Ctrl+d` adds six characters.
 */
module Recognizer {

  /** How a buffer relates to the accepted sequences. */
  datatype Outcome = Exact | Partial | NoMatch

  /** The loop of js/challenge.js over the accepted sequences from index
      `i` on: stop at the first sequence equal to the buffer; note a partial
      match for every sequence the buffer is a prefix of. `partial` says
      whether one was noted before `i`. */
  function Scan(buffer: string, accepted: seq<string>, i: nat, partial: bool): (r: Outcome)
    requires i <= |accepted|
    ensures r == Exact <==> buffer in accepted[i..]
    ensures r == Partial <==>
              buffer !in accepted[i..] && (partial || exists j :: i <= j < |accepted| && buffer <= accepted[j])
    decreases |accepted| - i
  {
    if i == |accepted| then
      if partial then Partial else NoMatch
    else if buffer == accepted[i] then Exact
    else
      var r := Scan(buffer, accepted, i + 1, partial || buffer <= accepted[i]);
      assert accepted[i..] == [accepted[i]] + accepted[i + 1..];
      r
  }

  /** The classification every controller makes after appending a key:
      `Exact` when the buffer is one of the accepted sequences, `Partial`
      when it is not but is a proper prefix of one, `NoMatch` otherwise. */
  function Classify(buffer: string, accepted: seq<string>): (r: Outcome)
    ensures r == Exact <==> buffer in accepted
    ensures r == Partial <==> buffer !in accepted && exists j :: 0 <= j < |accepted| && buffer < accepted[j]
    ensures r == NoMatch <==> forall j :: 0 <= j < |accepted| ==> !(buffer <= accepted[j])
  {
    assert accepted[0..] == accepted;
    PrefixOfAbsentIsProper(buffer, accepted);
    Scan(buffer, accepted, 0, false)
  }

  /** A buffer that is no accepted sequence is a prefix of one only
      properly. */
  lemma PrefixOfAbsentIsProper(buffer: string, accepted: seq<string>)
    ensures buffer !in accepted && (exists j :: 0 <= j < |accepted| && buffer <= accepted[j]) ==>
              exists j :: 0 <= j < |accepted| && buffer < accepted[j]
  {
    if buffer !in accepted && exists j :: 0 <= j < |accepted| && buffer <= accepted[j] {
      var j :| 0 <= j < |accepted| && buffer <= accepted[j];
      assert accepted[j] in accepted;
      assert buffer != accepted[j];
      assert buffer < accepted[j];
    }
  }

  /** The tutorial's and the practice screen's test against one target:
      equality first, then `startsWith`, else a miss. It is the general
      classification with one accepted sequence. */
  lemma ClassifySingle(buffer: string, target: string)
    ensures Classify(buffer, [target]) ==
              (if buffer == target then Exact else if buffer <= target then Partial else NoMatch)
  {
    assert target in [target];
  }

  /** Typing an accepted sequence one key at a time never misses on the
      way: every proper prefix is at least a partial match, and the whole
      sequence is exact. */
  lemma PrefixesNeverMiss(accepted: seq<string>, s: string, n: nat)
    requires s in accepted && n <= |s|
    ensures Classify(s[..n], accepted) != NoMatch
    ensures Classify(s, accepted) == Exact
  {
    assert s[..n] <= s;
  }

  /** Appending a key to a buffer that already missed misses again: no
      accepted sequence starts with the longer buffer either. */
  lemma MissStaysMissed(buffer: string, key: string, accepted: seq<string>)
    requires Classify(buffer, accepted) == NoMatch
    ensures Classify(buffer + key, accepted) == NoMatch
  {
  }
}

=== FILE: tutorial.dfy ===
/**
 * The guided tutorial of js/tutorial.js: a fixed table of steps, each
 * naming the key sequence to press, filtered by difficulty when the
 * tutorial starts; a key buffer matched against the current step; a space
 * that advances once the step is done; and the 800 ms buffer clear as an
 * explicit event. The instruction text, progress label and highlights are
 * presentation and are not kept.
 */
module Tutorial {
  import opened CursorModel
  import JsString
  import VimEditor
  import Recognizer
  import Modes

  datatype Step = Step(key: string, difficulty: string)

  /** The step table, in declaration order: basic movement, then word,
      line and document movement, then the advanced motions. */
  const Steps: seq<Step> := EasyBlock + MediumBlock + HardBlock

  const EasyBlock: seq<Step> := [Step("h", "easy"), Step("j", "easy"), Step("k", "easy"), Step("l", "easy")]

  const MediumBlock: seq<Step> := [
    Step("w", "medium"), Step("b", "medium"), Step("$", "medium"), Step("%", "medium"),
    Step("gg", "medium"), Step("G", "medium")]

  const HardBlock: seq<Step> := [Step("0", "hard"), Step("^", "hard"), Step("e", "hard")]

  /** The lines of the text the tutorial's editor opens on; the cursor
      starts at (1, 10), inside the `print` call. */
  const CodeLines: seq<string> :=
    ["def tutorial():", "    print(\"Welcome to VimpyType\")", "    # Follow the instructions above", "    return True"]

  const Code: string := JsString.Join(CodeLines, '\n')

  /** The level table of `start`: any name it does not list is level 1. */
  function Level(name: string): (n: int)
    ensures 1 <= n <= 4
    ensures name !in ["medium", "hard", "meister"] ==> n == 1
  {
    if name == "easy" then 1
    else if name == "medium" then 2
    else if name == "hard" then 3
    else if name == "meister" then 4
    else 1
  }

  /** The steps of exactly one level, in their order. */
  function Select(steps: seq<Step>, level: int): (r: seq<Step>)
    ensures |r| <= |steps|
    ensures forall i :: 0 <= i < |r| ==> r[i] in steps && Level(r[i].difficulty) == level
    ensures forall i :: 0 <= i < |steps| && Level(steps[i].difficulty) == level ==> steps[i] in r
  {
    if |steps| == 0 then []
    else
      var rest := Select(steps[1..], level);
      assert forall i :: 1 <= i < |steps| ==> steps[i] == steps[1..][i - 1];
      if Level(steps[0].difficulty) == level then [steps[0]] + rest else rest
  }

  /** Selecting from two tables one after the other selects from their
      concatenation: the filter keeps the order of the table. */
  lemma {:induction false} SelectAppend(a: seq<Step>, b: seq<Step>, level: int)
    ensures Select(a + b, level) == Select(a, level) + Select(b, level)
  {
    if |a| == 0 {
      assert a + b == b;
    } else {
      assert (a + b)[1..] == a[1..] + b;
      SelectAppend(a[1..], b, level);
    }
  }

  /** The steps `start(mode)` plays: those of the mode's level, or the whole
      table when there are none. */
  function ActiveSteps(mode: string): (r: seq<Step>)
    ensures |r| > 0
    ensures forall i :: 0 <= i < |r| ==> r[i] in Steps
  {
    var sel := Select(Steps, Level(mode));
    if |sel| == 0 then Steps else sel
  }

  /** The tutorial's state. `clearArmed` says an 800 ms clear is pending;
      `nextEnabled` is the state of the next button; `handedOff` says the
      finish screen has installed its own click handler on that button,
      which no later `start` removes. */
  datatype Session = Session(
    active: seq<Step>,
    index: nat,
    buffer: string,
    clearArmed: bool,
    nextEnabled: bool,
    handedOff: bool,
    editor: VimEditor.Editor)

  /** The constructor, with the editor already loaded on the tutorial
      text. */
  function New(): (t: Session)
    ensures t.index == 0 && t.buffer == "" && !t.clearArmed && !t.nextEnabled && !t.handedOff
    ensures VimEditor.WellFormed(t.editor) && t.editor.buf.cursor == Pos(1, 10)
    ensures JsString.Join(t.editor.buf.lines, '\n') == Code
  {
    JsString.SplitJoin(CodeLines, '\n');
    Session([], 0, "", false, false, false, VimEditor.SetCode(VimEditor.New(), Code, Pos(1, 10)))
  }

  predicate Finished(t: Session)
  {
    t.index >= |t.active|
  }

  /** `showStep`: once past the last step, `finish`: enable the next button
      and install the finish screen's click handler on it; otherwise empty
      the buffer and disable the button. */
  function ShowStep(t: Session): (r: Session)
    ensures !Finished(t) ==> r.buffer == "" && !r.nextEnabled && BufferOnTrack(r) && r.handedOff == t.handedOff
    ensures Finished(t) ==> r.nextEnabled && r.handedOff && r.buffer == t.buffer
    ensures r.active == t.active && r.index == t.index && r.clearArmed == t.clearArmed && r.editor == t.editor
  {
    if Finished(t) then t.(nextEnabled := true, handedOff := true) else t.(buffer := "", nextEnabled := false)
  }

  /** `start(mode)`: play the mode's steps from the first. A pending clear
      is not cancelled. */
  function Start(t: Session, mode: string): (r: Session)
    ensures r.active == ActiveSteps(mode) && r.index == 0 && r.buffer == "" && !r.nextEnabled
    ensures r.clearArmed == t.clearArmed && r.editor == t.editor
  {
    ShowStep(t.(active := ActiveSteps(mode), index := 0, buffer := ""))
  }

  /** `nextStep`: the next step, or the finish screen after the last. */
  function NextStep(t: Session): (r: Session)
    ensures r.index == t.index + 1 && r.active == t.active && r.editor == t.editor && r.clearArmed == t.clearArmed
    ensures BufferOnTrack(r)
    ensures !Finished(r) ==> r.buffer == "" && !r.nextEnabled
    ensures Finished(r) ==> r.nextEnabled
  {
    ShowStep(t.(index := t.index + 1))
  }

  /** `stop`: empty the buffer and cancel the pending clear. */
  function Stop(t: Session): (r: Session)
    ensures r.buffer == "" && !r.clearArmed
    ensures r.active == t.active && r.index == t.index && r.editor == t.editor
    ensures r.nextEnabled == t.nextEnabled && r.handedOff == t.handedOff
  {
    t.(buffer := "", clearArmed := false)
  }

  /** The 800 ms clear firing: the buffer is emptied. */
  function ClearFired(t: Session): (r: Session)
    ensures !r.clearArmed && r.buffer == (if t.clearArmed then "" else t.buffer)
    ensures r.active == t.active && r.index == t.index && r.nextEnabled == t.nextEnabled && r.editor == t.editor
    ensures r.handedOff == t.handedOff
  {
    if t.clearArmed then t.(buffer := "", clearArmed := false) else t
  }

  /** A click on the next button, which does nothing while it is disabled.
      The constructor's listener runs `nextStep`; once a finish screen has
      installed its handler, that handler runs after it on every later
      click too, and calls `stop` (the hand-off to practice that follows is
      not part of the tutorial). */
  function Click(t: Session): (r: Session)
    ensures !t.nextEnabled ==> r == t
    ensures t.nextEnabled ==> r.index == t.index + 1 && r.active == t.active && r.editor == t.editor
    ensures t.nextEnabled ==> (r.nextEnabled <==> Finished(r)) && BufferOnTrack(r)
    ensures t.nextEnabled && t.handedOff ==> r.buffer == "" && !r.clearArmed
    ensures t.nextEnabled && !t.handedOff ==> r.clearArmed == t.clearArmed
    ensures r.handedOff <==> t.handedOff || (t.nextEnabled && Finished(r))
  {
    if !t.nextEnabled then t
    else if t.handedOff then Stop(NextStep(t))
    else NextStep(t)
  }

  /** `handleInput`. A space only advances, and only when the next button is
      enabled. Any other key cancels the pending clear, is appended to the
      buffer and classified against the step's key: a match enables the
      next button, a proper prefix arms a new clear, anything else empties
      the buffer. The key is then passed to the editor. */
  function Key(t: Session, key: string): (r: Session)
    requires Ok(t.editor.buf)
    requires key != " " ==> !Finished(t)
    ensures key == " " && !t.nextEnabled ==> r == t
    ensures key == " " && t.nextEnabled ==>
              && r.index == t.index + 1 && r.active == t.active && r.editor == t.editor
              && r.clearArmed == t.clearArmed && BufferOnTrack(r)
              && (r.nextEnabled <==> Finished(r))
    ensures key != " " ==> && r.index == t.index && r.active == t.active
                           && r.editor == VimEditor.HandleKey(t.editor, key)
                           && (r.buffer == "" || r.buffer == t.buffer + key)
                           && r.buffer <= t.active[t.index].key
                           && (r.clearArmed ==> r.buffer < t.active[t.index].key)
                           && (r.nextEnabled && !t.nextEnabled ==> r.buffer == t.active[t.index].key)
  {
    if key == " " then
      if t.nextEnabled then NextStep(t) else t
    else
      var buf := t.buffer + key;
      Recognizer.ClassifySingle(buf, t.active[t.index].key);
      var t' := match Recognizer.Classify(buf, [t.active[t.index].key])
        case Exact => t.(buffer := buf, clearArmed := false, nextEnabled := true)
        case Partial => t.(buffer := buf, clearArmed := true)
        case NoMatch => t.(buffer := "", clearArmed := false);
      t'.(editor := VimEditor.HandleKey(t.editor, key))
  }

  /** Space and the next button agree until the first finish screen has
      installed its handler; from then on a click also runs `stop`, which
      the space does not. */
  lemma SpaceVersusClick(t: Session)
    requires Ok(t.editor.buf)
    ensures !t.handedOff ==> Key(t, " ") == Click(t)
    ensures t.handedOff && t.nextEnabled ==> Click(t) == Stop(Key(t, " "))
  {
  }

  /** A clear armed before a step starts survives `showStep` (neither
      `start` nor `nextStep` cancels it), but it can only fire on the empty
      buffer `showStep` leaves, so it changes nothing visible: any key that
      could grow the buffer first re-decides the clear (`KeyOutcomes`). */
  lemma StaleClearIsHarmless(t: Session)
    requires !Finished(t) && t.clearArmed
    ensures var s := ShowStep(t);
            s.clearArmed && s.buffer == "" && ClearFired(s) == s.(clearArmed := false)
  {
  }

  /** A space never enters the buffer and never reaches the editor; it
      moves to the next step exactly when the next button is enabled. */
  lemma SpaceOnlyAdvances(t: Session)
    requires Ok(t.editor.buf)
    ensures var r := Key(t, " ");
            && r.editor == t.editor
            && (t.nextEnabled ==> r.index == t.index + 1)
            && (!t.nextEnabled ==> r == t)
            && (t.nextEnabled && !Finished(r) ==> r.buffer == "" && !r.nextEnabled)
  {
  }

  /** Any other key: the buffer grows by the key when it is the step's key
      or a proper prefix of it, and is emptied otherwise; only the full key
      enables the next button, only a proper prefix leaves a clear pending,
      and the editor sees the key. */
  lemma KeyOutcomes(t: Session, key: string)
    requires Ok(t.editor.buf) && key != " " && !Finished(t)
    ensures var r := Key(t, key);
            var buf := t.buffer + key;
            var want := t.active[t.index].key;
            && r.index == t.index && r.active == t.active
            && r.editor == VimEditor.HandleKey(t.editor, key)
            && (buf == want ==> r.buffer == buf && r.nextEnabled && !r.clearArmed)
            && (buf < want ==> r.buffer == buf && r.clearArmed && r.nextEnabled == t.nextEnabled)
            && (!(buf <= want) ==> r.buffer == "" && !r.clearArmed && r.nextEnabled == t.nextEnabled)
  {
    Recognizer.ClassifySingle(t.buffer + key, t.active[t.index].key);
  }

  /** The buffer holds a prefix of the current step's key, before and
      after every event. */
  predicate BufferOnTrack(t: Session)
  {
    !Finished(t) ==> t.buffer <= t.active[t.index].key
  }

  lemma {:induction false} KeyKeepsBufferOnTrack(t: Session, key: string)
    requires Ok(t.editor.buf) && (key != " " ==> !Finished(t))
    requires BufferOnTrack(t)
    ensures BufferOnTrack(Key(t, key))
  {
    if key != " " {
      KeyOutcomes(t, key);
    }
  }

  lemma {:induction false} SelectAll(steps: seq<Step>, level: int)
    requires forall i :: 0 <= i < |steps| ==> Level(steps[i].difficulty) == level
    ensures Select(steps, level) == steps
  {
    if |steps| > 0 {
      SelectAll(steps[1..], level);
    }
  }

  lemma {:induction false} SelectNone(steps: seq<Step>, level: int)
    requires forall i :: 0 <= i < |steps| ==> Level(steps[i].difficulty) != level
    ensures Select(steps, level) == []
  {
    if |steps| > 0 {
      SelectNone(steps[1..], level);
    }
  }

  /** Selecting a level from the whole table: the three difficulty blocks
      of the table, each filtered on its own. */
  lemma SelectBlocks(level: int)
    ensures Select(Steps, level) == Select(EasyBlock, level) + Select(MediumBlock, level) + Select(HardBlock, level)
  {
    SelectAppend(EasyBlock + MediumBlock, HardBlock, level);
    SelectAppend(EasyBlock, MediumBlock, level);
  }

  /** Each block of the table is all of one level. */
  lemma EasyBlockSelect(level: int)
    ensures Select(EasyBlock, level) == (if level == 1 then EasyBlock else [])
  {
    if level == 1 { SelectAll(EasyBlock, level); } else { SelectNone(EasyBlock, level); }
  }

  lemma MediumBlockSelect(level: int)
    ensures Select(MediumBlock, level) == (if level == 2 then MediumBlock else [])
  {
    if level == 2 { SelectAll(MediumBlock, level); } else { SelectNone(MediumBlock, level); }
  }

  lemma HardBlockSelect(level: int)
    ensures Select(HardBlock, level) == (if level == 3 then HardBlock else [])
  {
    if level == 3 { SelectAll(HardBlock, level); } else { SelectNone(HardBlock, level); }
  }

  lemma BlocksSelect(level: int)
    ensures Select(Steps, level) ==
              (if level == 1 then EasyBlock else []) + (if level == 2 then MediumBlock else []) + (if level == 3 then HardBlock else [])
  {
    SelectBlocks(level);
    EasyBlockSelect(level);
    MediumBlockSelect(level);
    HardBlockSelect(level);
  }

  /** `easy` plays the four basic steps, in table order. */
  lemma EasySteps()
    ensures ActiveSteps("easy") == EasyBlock
  {
    BlocksSelect(1);
  }

  /** `medium` plays the six steps after them. */
  lemma MediumSteps()
    ensures ActiveSteps("medium") == MediumBlock
  {
    BlocksSelect(2);
  }

  /** `hard` plays the last three steps. */
  lemma HardSteps()
    ensures ActiveSteps("hard") == HardBlock
  {
    BlocksSelect(3);
  }

  /** No step is at the `meister` level, so `meister` falls back to the
      whole table. */
  lemma MeisterSteps()
    ensures ActiveSteps("meister") == Steps
  {
    BlocksSelect(4);
  }

  /** A mode name the level table does not list plays the `easy` steps. */
  lemma UnknownModeIsEasy(mode: string)
    requires mode !in ["easy", "medium", "hard", "meister"]
    ensures ActiveSteps(mode) == EasyBlock
  {
    EasySteps();
  }

  /** The 1000 ms expiry of the editor's pending `g`, which reaches the
      editor whether or not the tutorial is still showing. */
  function GExpired(t: Session): (r: Session)
    ensures !r.editor.pendingG && r.editor.buf == t.editor.buf && r.editor.mode == t.editor.mode
    ensures r.(editor := t.editor) == t
  {
    t.(editor := VimEditor.GTimeout(t.editor))
  }

  /** What can happen to the tutorial: `start(mode)`, a key, the 800 ms
      clear, a click on the next button, the exit button's `stop`, and the
      editor's `g` expiry. */
  datatype Event =
    | Begin(mode: string)
    | Press(key: string)
    | Clear
    | NextClick
    | End
    | Expire

  /** The state every reachable tutorial keeps: the buffer is a prefix of
      the current step's key, and the editor's invariant holds. */
  predicate Valid(t: Session)
  {
    BufferOnTrack(t) && VimEditor.WellFormed(t.editor)
  }

  /** Keys other than space reach the tutorial only while a step is
      current. */
  predicate Allowed(t: Session, ev: Event)
  {
    ev.Press? && ev.key != " " ==> !Finished(t)
  }

  function Apply(t: Session, ev: Event): Session
    requires Valid(t) && Allowed(t, ev)
  {
    match ev
    case Begin(mode) => Start(t, mode)
    case Press(key) => Key(t, key)
    case Clear => ClearFired(t)
    case NextClick => Click(t)
    case End => Stop(t)
    case Expire => GExpired(t)
  }

  /** Every event keeps the state valid. */
  lemma {:induction false} ApplyKeepsValid(t: Session, ev: Event)
    requires Valid(t) && Allowed(t, ev)
    ensures Valid(Apply(t, ev))
  {
    match ev
    case Press(key) =>
      if key != " " {
        VimEditor.StepKeepsWellFormed(t.editor, VimEditor.Key(key));
      }
    case _ =>
  }

  /** The case the editor-level `gg` rule warns about: a `g`, then the
      800 ms clear and the 1000 ms expiry, then a second `g`. The tutorial
      sees one `g` in an empty buffer again, and the editor arms a fresh
      `g` instead of jumping. */
  lemma {:induction false} ExpiredGDoesNotJump(t: Session)
    requires Valid(t) && t.editor.mode == VimEditor.Normal && !t.editor.pendingG
    requires !Finished(t) && t.active[t.index].key == "gg" && t.buffer == ""
    ensures var t4 := Apply(Apply(Apply(Apply(t, Press("g")), Clear), Expire), Press("g"));
            && t4.buffer == "g" && t4.editor.pendingG && t4.nextEnabled == t.nextEnabled
            && t4.editor.buf == t.editor.buf
  {
    var t1 := Apply(t, Press("g"));
    VimEditor.SecondGJumpsToTop(t.editor);
    KeyOutcomes(t, "g");
    var t2 := Apply(t1, Clear);
    var t3 := Apply(t2, Expire);
    assert t3.buffer == "" && !t3.editor.pendingG && t3.editor.mode == VimEditor.Normal;
    VimEditor.SecondGJumpsToTop(t3.editor);
    KeyOutcomes(t3, "g");
  }

  /** The two-key step: with an empty buffer and the editor in NORMAL mode
      with no `g` pending, `g` is a partial match that leaves a clear
      pending, and a second `g` completes the step and moves the editor's
      cursor to the top. */
  lemma TypingGg(t: Session)
    requires VimEditor.WellFormed(t.editor) && t.editor.mode == VimEditor.Normal && !t.editor.pendingG
    requires !Finished(t) && t.active[t.index].key == "gg" && t.buffer == ""
    ensures var t1 := Key(t, "g");
            var t2 := Key(t1, "g");
            && t1.buffer == "g" && t1.clearArmed && t1.editor.pendingG
            && t2.buffer == "gg" && t2.nextEnabled && !t2.clearArmed
            && t2.editor.buf.cursor == Pos(0, 0)
  {
    KeyOutcomes(t, "g");
    var t1 := Key(t, "g");
    VimEditor.SecondGJumpsToTop(t.editor);
    VimEditor.SecondGJumpsToTop(t1.editor);
    KeyOutcomes(t1, "g");
  }

  /** The app starts the tutorial with the id of the mode `getMode` looked
      up. The two fallbacks agree: whatever name was asked for, the steps
      played are those the name itself would select. */
  lemma ModeIdSelectsSameSteps(id: string)
    ensures ActiveSteps(Modes.GetMode(id).id) == ActiveSteps(id)
  {
    if id !in ["easy", "medium", "hard", "meister"] {
      UnknownModeIsEasy(id);
      EasySteps();
    }
  }
}

=== FILE: vim_editor.dfy ===
/**
 * The `VimEditor` class of js/vim-editor.js as a state machine: NORMAL,
 * INSERT and VISUAL key dispatch over a buffer, with the pending `g` of the
 * two-key `gg` and its 1000 ms expiry as an explicit event.
 */
module VimEditor {
  import opened Wrappers
  import opened CursorModel
  import JsString
  import Motions
  import Mutations

  datatype Mode = Normal | Insert | Visual

  /** The editor's state. `pendingG` is `lastNormalKey === 'g'`;
      `selection` is `selectionStart`, the VISUAL anchor. */
  datatype Editor = Editor(buf: Buffer, mode: Mode, pendingG: bool, selection: Option<Pos>)

  /** What reaches the editor: a key, or the expiry of a pending `g`. */
  datatype Event = Key(key: string) | GExpired

  /** The constructor: no lines yet, cursor (0, 0), NORMAL. With no lines
      the cursor is on none, so nothing may reach the editor before
      `setCode`. */
  function New(): (e: Editor)
    ensures e.buf.lines == [] && e.buf.cursor == Pos(0, 0)
    ensures e.mode == Normal && !e.pendingG && e.selection == None
    ensures !Ok(e.buf)
  {
    Editor(Buffer([], Pos(0, 0)), Normal, false, None)
  }

  /** The keys NORMAL mode hands to `moveCursor` as they are. */
  const NormalMotions: seq<string> := ["h", "j", "k", "l", "w", "b", "0", "$", "G"]

  /** The keys VISUAL mode hands to `moveCursor`; `%` is not among them. */
  const VisualMotions: seq<string> := ["h", "j", "k", "l", "w", "b", "0", "$", "gg", "G"]

  /** `setCode`: the lines of `code`, the given cursor, NORMAL mode. The
      pending `g` and the VISUAL anchor are left as they were. */
  function SetCode(e: Editor, code: string, cursor: Pos): (r: Editor)
    ensures |r.buf.lines| >= 1
    ensures JsString.Join(r.buf.lines, '\n') == code
    ensures forall i :: 0 <= i < |r.buf.lines| ==> '\n' !in r.buf.lines[i]
    ensures r.buf.cursor == cursor && r.mode == Normal
    ensures r.pendingG == e.pendingG && r.selection == e.selection
  {
    JsString.JoinSplit(code, '\n');
    e.(buf := Buffer(JsString.Split(code, '\n'), cursor), mode := Normal)
  }

  function Move(b: Buffer, key: string): Buffer
    requires Ok(b)
  {
    b.(cursor := Motions.MoveCursor(b.lines, b.cursor, key))
  }

  /** `handleNormalInput`. Every key but `g` clears the pending `g`. */
  function NormalKey(e: Editor, key: string): (r: Editor)
    requires Ok(e.buf)
    ensures Ok(r.buf) && |r.buf.lines| == |e.buf.lines|
    ensures key != "x" ==> r.buf.lines == e.buf.lines
    ensures r.pendingG <==> key == "g" && !e.pendingG
    ensures r.mode == (if key == "i" || key == "a" then Insert else if key == "v" then Visual else e.mode)
    ensures r.selection == (if key == "v" then Some(e.buf.cursor) else e.selection)
  {
    var cur := e.buf.cursor;
    if key == "i" then e.(mode := Insert, pendingG := false)
    else if key == "a" then
      var cur' := if cur.col < |CurrentLine(e.buf)| then cur.(col := cur.col + 1) else cur;
      e.(buf := e.buf.(cursor := cur'), mode := Insert, pendingG := false)
    else if key == "v" then e.(mode := Visual, selection := Some(cur), pendingG := false)
    else if key in NormalMotions || key == "%" then e.(buf := Move(e.buf, key), pendingG := false)
    else if key == "g" then
      if e.pendingG then e.(buf := Move(e.buf, "gg"), pendingG := false)
      else e.(pendingG := true)
    else if key == "x" then e.(buf := Mutations.DeleteChar(e.buf), pendingG := false)
    else e.(pendingG := false)
  }

  /** `handleInsertInput`. */
  function InsertKey(e: Editor, key: string): (r: Editor)
    requires Ok(e.buf)
    ensures Ok(r.buf) && |r.buf.lines| >= |e.buf.lines| - 1
    ensures key != "Backspace" ==> r.buf.lines == e.buf.lines || |key| == 1
    ensures key != "Backspace" ==> r.buf.cursor.line == e.buf.cursor.line
    ensures r.mode == (if key == "Escape" then Normal else e.mode)
    ensures r.pendingG == e.pendingG && r.selection == e.selection
    ensures key != "Escape" && key != "Backspace" && |key| != 1 ==> r == e
  {
    var cur := e.buf.cursor;
    if key == "Escape" then
      e.(mode := Normal, buf := e.buf.(cursor := if cur.col > 0 then cur.(col := cur.col - 1) else cur))
    else if key == "Backspace" then e.(buf := Mutations.Backspace(e.buf))
    else if |key| == 1 then e.(buf := Mutations.InsertChar(e.buf, key[0]))
    else e
  }

  /** `handleVisualInput`. `x` and `d` delete one character only and leave
      the anchor set. */
  function VisualKey(e: Editor, key: string): (r: Editor)
    requires Ok(e.buf)
    ensures Ok(r.buf) && |r.buf.lines| == |e.buf.lines|
    ensures key != "x" && key != "d" ==> r.buf.lines == e.buf.lines
    ensures r.mode == (if key == "Escape" || key == "x" || key == "d" then Normal else e.mode)
    ensures r.selection == (if key == "Escape" then None else e.selection)
    ensures r.pendingG == e.pendingG
  {
    if key == "Escape" then e.(mode := Normal, selection := None)
    else if key in VisualMotions then e.(buf := Move(e.buf, key))
    else if key == "x" || key == "d" then e.(buf := Mutations.DeleteChar(e.buf), mode := Normal)
    else e
  }

  /** `handleInput`: dispatch on the mode. */
  function HandleKey(e: Editor, key: string): (r: Editor)
    requires Ok(e.buf)
    ensures Ok(r.buf) && |r.buf.lines| >= |e.buf.lines| - 1
  {
    match e.mode
    case Normal => NormalKey(e, key)
    case Insert => InsertKey(e, key)
    case Visual => VisualKey(e, key)
  }

  /** The callback of the 1000 ms timer a lone `g` arms. Timers are never
      cancelled, so any one of them expiring drops a pending `g`. */
  function GTimeout(e: Editor): (r: Editor)
    ensures !r.pendingG
    ensures r.buf == e.buf && r.mode == e.mode && r.selection == e.selection
  {
    e.(pendingG := false)
  }

  function Apply(e: Editor, ev: Event): Editor
    requires Ok(e.buf)
  {
    match ev
    case Key(k) => HandleKey(e, k)
    case GExpired => GTimeout(e)
  }

  /** The column limit of each mode: NORMAL and VISUAL stop on the last
      character (column 0 of an empty line), INSERT may sit one past it. */
  function ColLimit(e: Editor): int
    requires Ok(e.buf)
  {
    if e.mode == Insert then |CurrentLine(e.buf)| else LastCol(CurrentLine(e.buf))
  }

  /** The invariant every editor state reachable from `setCode` keeps. The
      column may be -1 (from `j`/`k` onto an empty line), never less; a `g`
      is pending only in NORMAL mode. */
  predicate WellFormed(e: Editor)
  {
    && Ok(e.buf)
    && -1 <= e.buf.cursor.col <= ColLimit(e)
    && (e.pendingG ==> e.mode == Normal)
  }

  /** `setCode` with a cursor on the new text starts a well-formed editor. */
  lemma SetCodeWellFormed(e: Editor, code: string, cursor: Pos)
    requires 0 <= cursor.line < |JsString.Split(code, '\n')|
    requires -1 <= cursor.col <= LastCol(JsString.Split(code, '\n')[cursor.line])
    ensures WellFormed(SetCode(e, code, cursor))
  {
  }

  /** Every key and every expiry keeps the invariant. */
  lemma StepKeepsWellFormed(e: Editor, ev: Event)
    requires WellFormed(e)
    ensures WellFormed(Apply(e, ev))
  {
    if ev.Key? {
      match e.mode
      case Normal => NormalKeepsWellFormed(e, ev.key);
      case Insert => InsertKeepsWellFormed(e, ev.key);
      case Visual => VisualKeepsWellFormed(e, ev.key);
    }
  }

  lemma NormalKeepsWellFormed(e: Editor, key: string)
    requires WellFormed(e) && e.mode == Normal
    ensures WellFormed(NormalKey(e, key))
  {
    var r := NormalKey(e, key);
    if key in NormalMotions || key == "%" || (key == "g" && e.pendingG) {
      var m := if key == "g" then "gg" else key;
      assert r.buf == Move(e.buf, m);
    } else if key == "x" {
      assert r.buf == Mutations.DeleteChar(e.buf);
    }
  }

  lemma InsertKeepsWellFormed(e: Editor, key: string)
    requires WellFormed(e) && e.mode == Insert
    ensures WellFormed(InsertKey(e, key))
  {
    if key == "Escape" {
    } else if key == "Backspace" {
      assert InsertKey(e, key).buf == Mutations.Backspace(e.buf);
    } else if |key| == 1 {
      assert InsertKey(e, key).buf == Mutations.InsertChar(e.buf, key[0]);
    }
  }

  lemma VisualKeepsWellFormed(e: Editor, key: string)
    requires WellFormed(e) && e.mode == Visual
    ensures WellFormed(VisualKey(e, key))
  {
    if key in VisualMotions {
      assert VisualKey(e, key).buf == Move(e.buf, key);
    } else if key == "x" || key == "d" {
      assert VisualKey(e, key).buf == Mutations.DeleteChar(e.buf);
    }
  }

  // ---------------------------------------------------------------------
  // The transition table.

  /** NORMAL: `i` enters INSERT in place; `a` enters INSERT one column
      further right unless the cursor is already past the line; `v` enters
      VISUAL anchored at the cursor; `x` deletes the character under the
      cursor; a motion moves the cursor; any other key except `g` does
      nothing but drop the pending `g`. */
  lemma NormalTransitions(e: Editor, key: string)
    requires Ok(e.buf) && e.mode == Normal
    ensures var r := HandleKey(e, key);
            var cur := e.buf.cursor;
            && (key != "g" ==> !r.pendingG)
            && (key == "i" ==> r.mode == Insert && r.buf == e.buf)
            && (key == "a" ==> r.mode == Insert && r.buf.lines == e.buf.lines
                               && r.buf.cursor == (if cur.col < |CurrentLine(e.buf)| then cur.(col := cur.col + 1) else cur))
            && (key == "v" ==> r.mode == Visual && r.buf == e.buf && r.selection == Some(cur))
            && (key == "x" ==> r.mode == Normal && r.buf == Mutations.DeleteChar(e.buf))
            && (key in NormalMotions || key == "%" ==>
                  r.mode == Normal && r.buf.lines == e.buf.lines
                  && r.buf.cursor == Motions.MoveCursor(e.buf.lines, cur, key))
            && (key !in NormalMotions && key !in ["%", "g", "i", "a", "v", "x"] ==> r == e.(pendingG := false))
  {
  }

  /** A `g` with a `g` pending jumps to (0, 0) and clears it; a `g` with none
      pending arms it and changes nothing else. */
  lemma SecondGJumpsToTop(e: Editor)
    requires Ok(e.buf) && e.mode == Normal
    ensures var r := HandleKey(e, "g");
            && (e.pendingG ==> r.buf == Buffer(e.buf.lines, Pos(0, 0)) && !r.pendingG && r.mode == Normal)
            && (!e.pendingG ==> r == e.(pendingG := true))
  {
  }

  /** A `g` is pending after an event only if that event was a `g` that
      found none pending, in NORMAL mode. */
  lemma PendingOnlyAfterLoneG(e: Editor, ev: Event)
    requires WellFormed(e)
    ensures Apply(e, ev).pendingG <==> (ev == Key("g") && e.mode == Normal && !e.pendingG)
  {
  }

  /** The event takes the `gg` branch of NORMAL mode: a `g` with a `g`
      already pending. */
  predicate FiresGg(e: Editor, ev: Event)
  {
    ev == Key("g") && e.mode == Normal && e.pendingG
  }

  /** `gg` fires exactly on the second of two `g` keys that arrive in
      NORMAL mode one right after the other, the first finding no `g`
      pending: any other key or an expiry in between prevents it. */
  lemma {:induction false} GgNeedsAdjacentGs(e: Editor, ev1: Event, ev2: Event)
    requires WellFormed(e)
    ensures FiresGg(Apply(e, ev1), ev2) <==>
              ev1 == Key("g") && ev2 == Key("g") && e.mode == Normal && !e.pendingG
    ensures FiresGg(Apply(e, ev1), ev2) ==> Apply(Apply(e, ev1), ev2).buf.cursor == Pos(0, 0)
  {
    PendingOnlyAfterLoneG(e, ev1);
    StepKeepsWellFormed(e, ev1);
  }

  /** INSERT: `Escape` returns to NORMAL one column left (not left of 0);
      `Backspace` deletes backwards; a one-character key is inserted; every
      other key (`Enter`, `Tab`, `ArrowLeft`, `Ctrl+d`, ...) changes nothing. */
  lemma InsertTransitions(e: Editor, key: string)
    requires Ok(e.buf) && e.mode == Insert
    ensures var r := HandleKey(e, key);
            var cur := e.buf.cursor;
            && (key == "Escape" ==> r.mode == Normal && r.buf.lines == e.buf.lines
                                    && r.buf.cursor == (if cur.col > 0 then cur.(col := cur.col - 1) else cur))
            && (key == "Backspace" ==> r.mode == Insert && r.buf == Mutations.Backspace(e.buf))
            && (key != "Escape" && key != "Backspace" && |key| == 1 ==>
                  r.mode == Insert && r.buf == Mutations.InsertChar(e.buf, key[0]))
            && (key != "Escape" && key != "Backspace" && |key| != 1 ==> r == e)
  {
  }

  /** VISUAL: `Escape` returns to NORMAL and drops the anchor; a motion moves
      the cursor; `x` or `d` deletes the one character under the cursor and
      returns to NORMAL with the anchor still set; other keys change nothing. */
  lemma VisualTransitions(e: Editor, key: string)
    requires Ok(e.buf) && e.mode == Visual
    ensures var r := HandleKey(e, key);
            && (key == "Escape" ==> r == e.(mode := Normal, selection := None))
            && (key in VisualMotions ==>
                  r == e.(buf := e.buf.(cursor := Motions.MoveCursor(e.buf.lines, e.buf.cursor, key))))
            && (key == "x" || key == "d" ==>
                  r.mode == Normal && r.selection == e.selection && r.buf == Mutations.DeleteChar(e.buf))
            && (key != "Escape" && key !in VisualMotions && key != "x" && key != "d" ==> r == e)
  {
  }

  /** A `j` onto an empty line leaves the column at -1. */
  lemma DownOntoEmptyLine(e: Editor)
    requires WellFormed(e) && e.mode == Normal && e.buf.cursor.line < |e.buf.lines| - 1
    requires |e.buf.lines[e.buf.cursor.line + 1]| == 0
    ensures HandleKey(e, "j").buf.cursor == Pos(e.buf.cursor.line + 1, -1)
  {
  }

  /** From ["abc", "", "def"] at (0, 0), `j j x` turns "def" into "dedef":
      the column is -1 on reaching "def", and `deleteChar` then reads it as
      `slice` does. */
  lemma DeleteAfterEmptyLineExample()
    ensures var e0 := Editor(Buffer(["abc", "", "def"], Pos(0, 0)), Normal, false, None);
            var e1 := HandleKey(e0, "j");
            var e2 := HandleKey(e1, "j");
            var e3 := HandleKey(e2, "x");
            e2.buf.cursor == Pos(2, -1) && e3.buf.lines == ["abc", "", "dedef"]
  {
    var e0 := Editor(Buffer(["abc", "", "def"], Pos(0, 0)), Normal, false, None);
    var e1 := HandleKey(e0, "j");
    assert e1.buf.cursor == Pos(1, -1);
    var e2 := HandleKey(e1, "j");
    assert e2.buf.cursor == Pos(2, -1);
    Mutations.DeleteAtMinusOneDuplicates(e2.buf);
    var e3 := HandleKey(e2, "x");
    assert e3.buf == Mutations.DeleteChar(e2.buf);
    assert CurrentLine(e3.buf) == "de" + "def" == "dedef";
    assert e3.buf.lines == ["abc", "", "dedef"];
  }
}

=== FILE: wrappers.dfy ===
/** A value that may be absent: JavaScript's `undefined` beside a present value. */
module Wrappers {

  datatype Option<+T> = None | Some(value: T)
}
